=== FILE: README.md ===
# Dotmim.Sync row collection and MySQL tracking-table core, in Dafny

This project models three pieces of the Dotmim.Sync synchronisation engine and
proves properties about them.

- **`SyncRows`** (`sync_rows.dfy`, module `Rows`) is the in-memory, insertion-ordered
  row collection of one synchronised table.
  - It is modelled as an immutable value. Each mutating call returns the collection
    it leaves behind. Exceptions become `Result` failures.
  - Adding a checked row validates the arity and the cell types (`TryEnsureData`)
    against the table's columns.
  - Lookup by composite primary key (`GetRowsByPrimaryKeys`) is proved to select
    exactly the rows whose whole key equals the criteria's key, in order.
  - Rebinding (`EnsureRows`), clearing, and the positional list operations are also
    modelled.
- **`MySqlBuilderTrackingTable`** (`tracking_table.dfy`, module `TrackingTable`) builds
  the `CREATE TABLE` statement of a table's tracking table, the statement that
  populates it from the base table, and the drop command.
  - Statements are modelled as their column, value and clause lists, not as
    byte-exact text.
  - The relation and filter columns are de-duplicated, ignoring case. The resulting
    list is proved free of duplicates, disjoint from the key, and complete.
  - The populate statement's insert and select lists are proved parallel.
- **`MySqlManagerTable`** (`manager_table.dfy`, module `ManagerTable`) maps rows
  already fetched from `information_schema` to column, relation and primary-key
  descriptions.
  - Columns are proved to be ordered by ordinal position, through a stable sort.
  - Each column's flags are proved to follow the documented rules. Every
    `Convert.ToXxx` overflow is an error.
  - The foreign-key rows are grouped into relations. The grouping is proved to
    partition the rows.
- **Shared modules.**
  - `Wrappers` holds `Option` (null / `DBNull`) and `Result`.
  - `Text` holds ASCII lower-casing, substring search and separator joining.
  - `Seqs` holds the order-preserving `Filter` that stands for LINQ `Where` and
    `GroupBy`.

Collaborators whose code is not part of this model become parameters:

| Collaborator | Modelled as |
|---|---|
| `TypeDescriptor.GetConverter(..).CanConvertFrom(..)` | the function `ConverterOracle` |
| `ObjectNameParser` quoting | the `Quoting` triple of functions of (name, left delimiter, right delimiter) |
| `MySqlDbMetadata` | `TypeMapping` / `TypeResolver` |
| `MySqlBuilder.WrapScriptTextWithComments` | the `wrap` argument of `DropTableScriptText` |

## Model

| member | source | states |
|---|---|---|
| Rows.TryEnsureData | Projects/Dotmim.Sync.Core/Set/SyncRows.cs:110-146 | a row is accepted exactly when it `Fits` the table: one cell per column, and each cell null, of the column's type, in an `object` or `string` column, or convertible by the converter oracle; an arity mismatch is reported exactly when the lengths differ, and an incompatible cell error names the first rejected cell |
| Rows.CheckCells | Projects/Dotmim.Sync.Core/Set/SyncRows.cs:115-144 | the cell loop succeeds exactly when every remaining cell is accepted, and otherwise stops at the first rejected index |
| Rows.AddValues | Projects/Dotmim.Sync.Core/Set/SyncRows.cs:30-34 | exactly one row is appended, carrying the given values and state (when no state is given, `DefaultRowState`, that is Unchanged; see `Rows.AddValuesDefaultsToUnchanged`) and bound to the table; earlier rows are unchanged and a fully bound collection stays bound |
| Rows.AddValuesRange | Projects/Dotmim.Sync.Core/Set/SyncRows.cs:39-46 | one unchecked row per value array is appended, in input order, all with the same state (Unchanged when none is given) and bound to the table; the prefix is unchanged |
| Rows.AddValuesDefaultsToUnchanged | Projects/Dotmim.Sync.Core/Set/SyncRows.cs:30-46 | rows added from raw values, singly or as a batch, without a named state are `Unchanged` |
| Rows.Add | Projects/Dotmim.Sync.Core/Set/SyncRows.cs:61-66 | succeeds exactly when the row fits the table, raising `TryEnsureData`'s error otherwise; on success the row is bound to the table and appended after the unchanged rows |
| Rows.AddRange | Projects/Dotmim.Sync.Core/Set/SyncRows.cs:48-57 | no error exactly when every item fits, and then all items are appended bound and in order; on an error the first `k` items (all fitting) stay appended with no rollback, item `k` does not fit, and its `TryEnsureData` error is raised |
| Rows.Insert | Projects/Dotmim.Sync.Core/Set/SyncRows.cs:193-197 | succeeds exactly for `0 <= index <= Count` (else an index error); the row, bound to the table with no arity check, lands at `index` with the rows before and after it shifted intact |
| Rows.RemoveAt | Projects/Dotmim.Sync.Core/Set/SyncRows.cs:191 | succeeds exactly for `0 <= index < Count`; the row at `index` is dropped and the rows around it keep their order |
| Rows.IndexOf | Projects/Dotmim.Sync.Core/Set/SyncRows.cs:190 | -1 exactly when the row is absent; otherwise the position of its first occurrence |
| Rows.Remove | Projects/Dotmim.Sync.Core/Set/SyncRows.cs:187 | reports true exactly when the row is present; then exactly its first occurrence is removed (one copy fewer in the multiset), otherwise nothing changes |
| Rows.EnsureRows | Projects/Dotmim.Sync.Core/Set/SyncRows.cs:20-25 | the collection and every row it holds become bound to the new table; count, cells and states are kept |
| Rows.EnsureRowsIdempotent | Projects/Dotmim.Sync.Core/Set/SyncRows.cs:20-25 | rebinding twice to the same table is rebinding once |
| Rows.Clear | Projects/Dotmim.Sync.Core/Set/SyncRows.cs:167-176 | the collection ends empty; every row it held is emptied and unbound from any table, keeping its state |
| Rows.SelectMatching | Projects/Dotmim.Sync.Core/Set/SyncRows.cs:90-100 | the per-row key test is evaluated on every row; the selection succeeds exactly when no test raises, and is then the order-preserving filter of the rows whose test answers true |
| Rows.GetRowsByPrimaryKeys | Projects/Dotmim.Sync.Core/Set/SyncRows.cs:80-103 | an unbound criteria row raises a null reference; a key-column count mismatch raises; a successful result holds only rows of the collection that pass the key test, and every such row; it is exactly the rows passing the key test, in collection order and with their multiplicity |
| Rows.KeysMatchIsCompositeKeyEquality | Projects/Dotmim.Sync.Core/Set/SyncRows.cs:92-99 | when every key cell can be read and the criteria has no null key cell, the short-circuiting key test raises nothing and answers exactly whether all key columns are equal, not only the first |
| Rows.KeysMatchOutcome | Projects/Dotmim.Sync.Core/Set/SyncRows.cs:90-100 | the per-row key test answers true exactly when every key cell is readable on both sides, non-null in the criteria and equal; false exactly when some key differs with all keys before it equal; and raises only at a key unreadable or null in the criteria, all keys before it equal |
| Rows.GetRowsByPrimaryKeysSelectsEqualKeys | Projects/Dotmim.Sync.Core/Set/SyncRows.cs:80-103 | under those conditions the lookup succeeds and returns exactly the rows with an equal composite key, in their original order |
| Rows.CountTracksEdits | Projects/Dotmim.Sync.Core/Set/SyncRows.cs:180 | `Count` is the number of rows held: one more after `Add`, `AddValues` or `Insert`, one fewer after `RemoveAt` or a successful `Remove`, none after `Clear`, unchanged by `EnsureRows` |
| Rows.InsertThenRemoveAtRestores | Projects/Dotmim.Sync.Core/Set/SyncRows.cs:191-197 | `RemoveAt` at the index just used by `Insert` restores the collection |
| Rows.AddThenRemoveRestores | Projects/Dotmim.Sync.Core/Set/SyncRows.cs:61-66 | a freshly added row is found at the end by `IndexOf`, and `Remove` of it restores the collection |
| TrackingTable.FindColumn | Projects/Dotmim.Sync.MySql/Builders/MySqlBuilderTrackingTable.cs:212-215 | the column indexer finds the first table column answering to the name under the table's case rule (no earlier column answers), or reports none exactly when no column answers |
| TrackingTable.ResolveFilters | Projects/Dotmim.Sync.MySql/Builders/MySqlBuilderTrackingTable.cs:206-216 | fails exactly when some filter names a column the table lacks; otherwise the columns found are, in filter order and one per filter that names a column (filters without one are skipped), exactly the column the indexer finds for that name; each is a table column |
| TrackingTable.KeepNewIsFirstOccurrences | Projects/Dotmim.Sync.MySql/Builders/MySqlBuilderTrackingTable.cs:176-233 | the duplicate check keeps candidate `i` exactly when no key column and no earlier candidate has its name, ignoring case, and the kept candidates stay in candidate order |
| TrackingTable.KeepNewKeepsCandidates | Projects/Dotmim.Sync.MySql/Builders/MySqlBuilderTrackingTable.cs:176-233 | the de-duplication only keeps candidates, each at most as often as offered |
| TrackingTable.KeepNewAvoidsAdded | Projects/Dotmim.Sync.MySql/Builders/MySqlBuilderTrackingTable.cs:183-184 | no kept column has a name, ignoring case, of a column added before the walk (the primary key) |
| TrackingTable.KeepNewDistinct | Projects/Dotmim.Sync.MySql/Builders/MySqlBuilderTrackingTable.cs:176-233 | no two kept columns share a name, ignoring case |
| TrackingTable.KeepNewCovers | Projects/Dotmim.Sync.MySql/Builders/MySqlBuilderTrackingTable.cs:176-233 | nothing is lost: every candidate's name is taken, ignoring case, by the key or by a kept column |
| TrackingTable.TrackedExtras | Projects/Dotmim.Sync.MySql/Builders/MySqlBuilderTrackingTable.cs:173-233 | the columns after the tracking block fail exactly on an unresolvable filter; otherwise they avoid the key's names, are pairwise distinct ignoring case, take filter columns only from the table, and cover every relation parent column and every named filter; they are exactly the relation parent columns, relation by relation, then the resolved filter columns in filter order, each kept only when no key column and no earlier one has its name, ignoring case |
| TrackingTable.CreateTableWith | Projects/Dotmim.Sync.MySql/Builders/MySqlBuilderTrackingTable.cs:142-250 | the tracking table declares the key columns in key order as NOT NULL, then exactly the seven tracking columns, then each extra column as NULL under its quoted name, typed from its own unsigned and unicode flags; the `PRIMARY KEY` clause lists the key names in order |
| TrackingTable.CreateTableCommandText | Projects/Dotmim.Sync.MySql/Builders/MySqlBuilderTrackingTable.cs:204-233 | as written: relation columns are declared under back-tick quoted names, filter columns under `[`/`]` quoted names, and each extra column's type text is unquoted with the same delimiters as its name |
| TrackingTable.CreateTableCommandTextCorrected | Projects/Dotmim.Sync.MySql/Builders/MySqlBuilderTrackingTable.cs:204-233 | every extra column is declared under its back-tick quoted name |
| TrackingTable.TrackingBlockShape | Projects/Dotmim.Sync.MySql/Builders/MySqlBuilderTrackingTable.cs:164-171 | the tracking block has seven columns, and `sync_row_is_tombstone` (sixth) is the only one not NULL |
| TrackingTable.BuildPrimaryKeyClause | Projects/Dotmim.Sync.MySql/Builders/MySqlBuilderTrackingTable.cs:237-248 | the source's index loop with its last-element test yields the key names joined by `", "` with no trailing separator, closed by `"))"` |
| TrackingTable.CreateTableTextEnds | Projects/Dotmim.Sync.MySql/Builders/MySqlBuilderTrackingTable.cs:142-250 | the statement text opens with `CREATE TABLE {tracking name} (` and its line break, and closes with the `PRIMARY KEY` clause |
| TrackingTable.CreateTableLineAt | Projects/Dotmim.Sync.MySql/Builders/MySqlBuilderTrackingTable.cs:142-233 | each column's line sits right after the header and the lines of the columns before it, so the lines appear in column order |
| TrackingTable.CreateTableTextEndsWithKeyClause | Projects/Dotmim.Sync.MySql/Builders/MySqlBuilderTrackingTable.cs:237-250 | the statement text ends with the key clause, and so with `"))"` |
| TrackingTable.PopulateFromBaseTable | Projects/Dotmim.Sync.MySql/Builders/MySqlBuilderTrackingTable.cs:294-417 | fails exactly when a filter names a column the table lacks; the insert and select lists have the same length: key columns, the six tracking columns with values NULL, NULL, timestamp, 0, timestamp, 0, then the extras, every non-tracking value being the `base`-qualified column; the `ON` clause equates `base` and `side` on every inserted key column and the `WHERE` clause tests each of them `IS NULL` on `side` |
| TrackingTable.PopulateWith | Projects/Dotmim.Sync.MySql/Builders/MySqlBuilderTrackingTable.cs:301-412 | for given extra columns, the insert and select lists run side by side over the key columns, the six tracking columns with their fixed values, and the extras under back-tick quoted names; every value outside the tracking block reads the same-named column of the `base` table; the `ON` and `WHERE` clauses are built over exactly the inserted key columns |
| TrackingTable.BuildJoinClauses | Projects/Dotmim.Sync.MySql/Builders/MySqlBuilderTrackingTable.cs:301-323 | the source's separator loop yields `ON base.k = side.k` and `WHERE side.k IS NULL` over every key, joined by `" AND "` |
| TrackingTable.PopulateFillsDeclaredColumns | Projects/Dotmim.Sync.MySql/Builders/MySqlBuilderTrackingTable.cs:328-372 | with back-tick quoting throughout, the populate statement fills, after its tracking columns, exactly the columns the tracking table declares after its tracking block, in the same order and under the same names, and the key columns agree too |
| TrackingTable.FilterColumnQuotedApart | Projects/Dotmim.Sync.MySql/Builders/MySqlBuilderTrackingTable.cs:220 | for a table keyed on `id` and filtered on `region`, the as-written statement declares `[region]` while the populate statement inserts into `` `region` `` |
| TrackingTable.CreatePkCommandText | Projects/Dotmim.Sync.MySql/Builders/MySqlBuilderTrackingTable.cs:95-98 | always empty: the key is created with the table |
| TrackingTable.DropTableScriptText | Projects/Dotmim.Sync.MySql/Builders/MySqlBuilderTrackingTable.cs:521-527 | the script is what the comment wrapper makes of a command reading `drop table if exists ` then the quoted tracking name, with the comment `Drop table ` then that name |
| TrackingTable.DropTableCommand | Projects/Dotmim.Sync.MySql/Builders/MySqlBuilderTrackingTable.cs:521-527 | the drop command is `drop table if exists ` followed by the quoted tracking name, which can be read back from it |
| Text.Contains | Projects/Dotmim.Sync.MySql/Manager/MySqlManagerTable.cs:65 | the substring search answers true exactly when the pattern occurs at some position |
| ManagerTable.LengthToInt64 | Projects/Dotmim.Sync.MySql/Manager/MySqlManagerTable.cs:47 | a null length reads as 0; a length beyond the 64-bit signed range overflows |
| ManagerTable.ToByteOrZero | Projects/Dotmim.Sync.MySql/Manager/MySqlManagerTable.cs:59-60 | null reads as 0; a value above 255 overflows, naming the field |
| ManagerTable.ColumnFromRow | Projects/Dotmim.Sync.MySql/Manager/MySqlManagerTable.cs:43-73 | a row fails exactly when a numeric field overflows; otherwise its column has the row's name, type name and ordinal, a length clamped to the 32-bit maximum (0 when null), precision and scale (0 when null), nullability false exactly for `"NO"`, auto-increment exactly when the lower-cased `extra` is non-empty and contains `auto increment` or `auto_increment`, unsigned exactly when `column_type` contains `unsigned`, unique exactly when the lower-cased `column_key` contains `uni`; the managed type is the resolver's managed type of the owner type looked up from the type name, the unsigned flag, unicode false and the unclamped length (0 when null) |
| ManagerTable.ColumnsFromRows | Projects/Dotmim.Sync.MySql/Manager/MySqlManagerTable.cs:41-75 | one column per row in row order, or the error of the first failing row |
| ManagerTable.SortByOrdinal | Projects/Dotmim.Sync.MySql/Manager/MySqlManagerTable.cs:41 | the ordering is ascending by ordinal and a permutation of the rows |
| ManagerTable.SortByOrdinalStable | Projects/Dotmim.Sync.MySql/Manager/MySqlManagerTable.cs:41 | rows with equal ordinals keep their relative order, as `OrderBy` promises |
| ManagerTable.GetTableDefinition | Projects/Dotmim.Sync.MySql/Manager/MySqlManagerTable.cs:32-78 | succeeds exactly when no row overflows, naming an overflowing field of some row otherwise; yields one column per row, with ascending ordinals, each mapped from the row at its place in ordinal order |
| ManagerTable.DistinctKeys | Projects/Dotmim.Sync.MySql/Manager/MySqlManagerTable.cs:88 | the group keys are pairwise distinct, include every row's key, each occurs in the rows, and appear in order of first occurrence |
| ManagerTable.OrderToInt32 | Projects/Dotmim.Sync.MySql/Manager/MySqlManagerTable.cs:102 | a foreign-key order outside the 32-bit signed range overflows; any other is kept |
| ManagerTable.RelationColumns | Projects/Dotmim.Sync.MySql/Manager/MySqlManagerTable.cs:97-103 | one relation column per group row, in order, or an overflow exactly when some order does not fit |
| ManagerTable.RelationsFor | Projects/Dotmim.Sync.MySql/Manager/MySqlManagerTable.cs:88-106 | one relation per key in key order, carrying the key's names and its group's columns |
| ManagerTable.GetTableRelations | Projects/Dotmim.Sync.MySql/Manager/MySqlManagerTable.cs:80-110 | no relation for a null or empty result; an overflow exactly when some row's order does not fit; otherwise one relation per distinct (foreign key, table, referenced table) in first-occurrence order, whose columns are exactly that group's rows in row order |
| ManagerTable.GroupsPartitionRows | Projects/Dotmim.Sync.MySql/Manager/MySqlManagerTable.cs:88-106 | the groups together hold every row exactly once |
| ManagerTable.RelationsCoverRows | Projects/Dotmim.Sync.MySql/Manager/MySqlManagerTable.cs:86-109 | the relations' columns add up to the number of rows |
| ManagerTable.KeyColumns | Projects/Dotmim.Sync.MySql/Manager/MySqlManagerTable.cs:122-127 | one key column per row in row order, with its name and ordinal, or an overflow exactly when an ordinal does not fit 32 bits |
| ManagerTable.GetTablePrimaryKeys | Projects/Dotmim.Sync.MySql/Manager/MySqlManagerTable.cs:112-130 | a null or empty result raises the no-primary-key error, and only then; otherwise one key column per row, in row order, with its ordinal set |

## Findings

| source | as written | input that shows it | evidently intended | confidence | as-written member | corrected member |
|---|---|---|---|---|---|---|
| Projects/Dotmim.Sync.MySql/Builders/MySqlBuilderTrackingTable.cs:220 | a filter column of the tracking table is declared under a name quoted with `[` and `]`, and its type is unquoted with them too (line 223). MySQL does not accept brackets as identifier quotes. Every other column, and the populate statement (line 369), use back-ticks. | a table keyed on `id` with a filter on its `region` column: `CREATE TABLE` declares `[region]`, while the populate statement inserts into `` `region` `` | quote filter columns with back-ticks, as the relation columns are quoted at line 186 | high (not executed) | TrackingTable.CreateTableCommandText, TrackingTable.FilterColumnQuotedApart | TrackingTable.CreateTableCommandTextCorrected, TrackingTable.PopulateFillsDeclaredColumns |

## Left out

- Database I/O is not modelled. This covers `CreateTable`, `CreatePk`, `PopulateFromBaseTable`, `AddFilterColumn`, `DropTable`, `NeedToCreateTrackingTable` and the `MySqlManagementUtils` queries. The manager functions take the fetched rows as input.
- The not-implemented stubs and the empty index methods of the tracking builder are not modelled. They only raise errors or return nothing.
- The script wrappers other than the drop script are not modelled. `CreateTableScriptText`, `CreatePopulateFromBaseTableScriptText` and `ScriptAddFilterColumn` only wrap a modelled command with a comment. `AddFilterColumnCommandText` is not part of the core modelled here.
- Exact whitespace, newlines and list separators of the generated SQL are not modelled. Statements are their column, value and clause lists.
  - As a consequence, the populate statement's separators for a table with no primary key are not modelled. There the separator is never set to `", "`, so the column lists start with `", "`, the first extra column follows the tombstone column with no comma, and consecutive extra columns run together with no comma.
- Case-insensitive comparison (`ToLowerInvariant`) is modelled for ASCII letters only. Full Unicode case mapping is left out.
- Rows are compared by value, where the source compares row references. `IndexOf` and `Remove` find the first row that is equal as a value.
- The aliasing that `Insert` creates is not modelled. `Insert` sets the caller's row's table before the index check, so a failing `Insert` still rebinds that row object. The model keeps only the collection.
- `SyncRow`'s own members are not part of this model. The model takes these readings:
  - `Clear` empties the values.
  - The name indexer resolves a column of the row's table by exact name, raising when the row is unbound or the name is unknown.
- `DmTable.Columns[name]` is modelled as the first column matching under the table's case-sensitivity flag. `DmTable` is not part of this model.
- Rows.GetRowsByPrimaryKeys: the LINQ `Where` is lazy in the source. Its errors surface only when the result is enumerated. The model evaluates the whole result at once.
- Rows.Remove, Rows.IndexOf: these use value equality in place of reference equality.
- ManagerTable.ColumnFromRow: the managed type comes from the uninterpreted `TypeResolver` (the `MySqlDbMetadata` mapping). An unknown type name raising inside that mapping is not modelled.
  - The numeric cells are taken to be unsigned integers, as `information_schema` declares them.
  - `is_nullable` is taken to be never null.
- ManagerTable.GetTableRelations: the six cells of a foreign-key row are taken to be non-null. The string casts would raise on `DBNull`.
- The `TypeConverter` reflection and `MySqlDbMetadata` are uninterpreted functions. Their results are whatever those functions say.

=== FILE: manager_table.dfy ===
/** The MySQL table manager (`MySqlManagerTable`): turns rows already read from
    `information_schema` into column, relation and primary-key descriptions.

    Fetching the rows (`MySqlManagementUtils`) is outside the model: every
    operation takes the fetched rows as a sequence. The MySQL type mapping
    (`MySqlDbMetadata`) is a pair of uninterpreted functions passed in. */
module ManagerTable {
  import opened Wrappers
  import opened Text
  import opened Seqs

  const Int32Max := 0x7FFF_FFFF
  const Int32Min := -0x8000_0000
  const Int64Max := 0x7FFF_FFFF_FFFF_FFFF
  const ByteMax := 0xFF

  /** The `OverflowException` a `Convert.ToXxx` call raises, naming the field read. */
  datatype MetadataError = Overflow(field: string) | NoPrimaryKeys

  // ---------------------------------------------------------------------------
  // Column definitions
  // ---------------------------------------------------------------------------

  /** One row of the column query. `None` is `DBNull.Value`; the numeric fields are
      unsigned in `information_schema`. */
  datatype ColumnRow = ColumnRow(
    dataType: Option<string>,
    columnName: Option<string>,
    columnType: Option<string>,
    characterMaximumLength: Option<nat>,
    ordinalPosition: nat,
    numericPrecision: Option<nat>,
    numericScale: Option<nat>,
    isNullable: string,
    extra: Option<string>,
    columnKey: Option<string>)

  /** `MySqlDbMetadata`: `ValidateOwnerDbType(typeName, unsigned, unicode, maxLength)`
      and `ValidateType(dbType)`, the managed type name of a MySQL type. */
  datatype TypeResolver = TypeResolver(
    ownerDbType: (string, bool, bool, int) -> int,
    managedType: int -> string)

  /** The column description `GetTableDefinition` builds for one row. */
  datatype MySqlColumn = MySqlColumn(
    name: string,
    managedType: string,
    originalTypeName: string,
    ordinal: int,
    maxLength: int,
    precision: nat,
    scale: nat,
    allowDbNull: bool,
    isAutoIncrement: bool,
    isUnsigned: bool,
    isUnique: bool)

  /** `Convert.ToInt64` of a nullable unsigned length, 0 when null. */
  function LengthToInt64(length: Option<nat>): (r: Result<int, MetadataError>)
    ensures r.Failure? <==> length.Some? && length.value > Int64Max
    ensures r.Success? ==> 0 <= r.value <= Int64Max && r.value == length.GetOr(0)
  {
    match length
    case None => Success(0)
    case Some(n) => if n > Int64Max then Failure(Overflow("character_maximum_length")) else Success(n)
  }

  /** `Convert.ToByte` of a nullable unsigned number, `(byte)0` when null. */
  function ToByteOrZero(value: Option<nat>, field: string): (r: Result<nat, MetadataError>)
    ensures r.Failure? <==> value.Some? && value.value > ByteMax
    ensures r.Failure? ==> r.error == Overflow(field)
    ensures r.Success? ==> r.value <= ByteMax && r.value == value.GetOr(0)
  {
    match value
    case None => Success(0)
    case Some(n) => if n > ByteMax then Failure(Overflow(field)) else Success(n)
  }

  /** Some numeric field of the row does not fit the type it is converted to. */
  predicate RowOverflows(row: ColumnRow) {
    || (row.characterMaximumLength.Some? && row.characterMaximumLength.value > Int64Max)
    || row.ordinalPosition > Int32Max
    || (row.numericPrecision.Some? && row.numericPrecision.value > ByteMax)
    || (row.numericScale.Some? && row.numericScale.value > ByteMax)
  }

  /** The field named `field` of the row does not fit its conversion. */
  predicate FieldOverflows(row: ColumnRow, field: string) {
    || (field == "character_maximum_length" && row.characterMaximumLength.Some? && row.characterMaximumLength.value > Int64Max)
    || (field == "ordinal_position" && row.ordinalPosition > Int32Max)
    || (field == "numeric_precision" && row.numericPrecision.Some? && row.numericPrecision.value > ByteMax)
    || (field == "numeric_scale" && row.numericScale.Some? && row.numericScale.value > ByteMax)
  }

  /** The body of the `GetTableDefinition` loop for one row. */
  function ColumnFromRow(row: ColumnRow, resolver: TypeResolver): (r: Result<MySqlColumn, MetadataError>)
    ensures r.Failure? <==> RowOverflows(row)
    ensures r.Failure? ==> r.error.Overflow? && FieldOverflows(row, r.error.field)
    ensures r.Success? ==>
              var c := r.value;
              && c.name == row.columnName.GetOr("")
              && c.originalTypeName == row.dataType.GetOr("")
              && c.ordinal == row.ordinalPosition
              && 0 <= c.maxLength <= Int32Max
              && (row.characterMaximumLength.None? ==> c.maxLength == 0)
              && (row.characterMaximumLength.Some? ==>
                    c.maxLength == if row.characterMaximumLength.value > Int32Max then Int32Max else row.characterMaximumLength.value)
              && c.precision == row.numericPrecision.GetOr(0)
              && c.scale == row.numericScale.GetOr(0)
              && (c.allowDbNull <==> row.isNullable != "NO")
              && (c.isAutoIncrement <==>
                    && row.extra.Some? && |row.extra.value| > 0
                    && (Occurs("auto increment", Lower(row.extra.value)) || Occurs("auto_increment", Lower(row.extra.value))))
              && (c.isUnsigned <==> row.columnType.Some? && Occurs("unsigned", row.columnType.value))
              && (c.isUnique <==> row.columnKey.Some? && Occurs("uni", Lower(row.columnKey.value)))
              && c.managedType == resolver.managedType(
                   resolver.ownerDbType(c.originalTypeName, c.isUnsigned, false, row.characterMaximumLength.GetOr(0)))
  {
    var typeName := row.dataType.GetOr("");
    var name := row.columnName.GetOr("");
    var isUnsigned := row.columnType.Some? && Contains(row.columnType.value, "unsigned");
    var maxLengthLong :- LengthToInt64(row.characterMaximumLength);
    var managedType := resolver.managedType(resolver.ownerDbType(typeName, isUnsigned, false, maxLengthLong));
    if row.ordinalPosition > Int32Max then Failure(Overflow("ordinal_position"))
    else
      var precision :- ToByteOrZero(row.numericPrecision, "numeric_precision");
      var scale :- ToByteOrZero(row.numericScale, "numeric_scale");
      var extra := if row.extra.Some? then Some(Lower(row.extra.value)) else None;
      var isAutoIncrement :=
        extra.Some? && |extra.value| > 0 && (Contains(extra.value, "auto increment") || Contains(extra.value, "auto_increment"));
      var isUnique := row.columnKey.Some? && Contains(Lower(row.columnKey.value), "uni");
      Success(MySqlColumn(
        name, managedType, typeName, row.ordinalPosition,
        if maxLengthLong > Int32Max then Int32Max else maxLengthLong,
        precision, scale, row.isNullable != "NO", isAutoIncrement, isUnsigned, isUnique))
  }

  /** The loop over the ordered rows: every row mapped in turn, the first overflow raising. */
  function ColumnsFromRows(rows: seq<ColumnRow>, resolver: TypeResolver): (r: Result<seq<MySqlColumn>, MetadataError>)
    ensures r.Success? <==> forall i :: 0 <= i < |rows| ==> !RowOverflows(rows[i])
    ensures r.Success? ==> |r.value| == |rows| && forall i :: 0 <= i < |rows| ==> ColumnFromRow(rows[i], resolver) == Success(r.value[i])
    ensures r.Failure? ==> exists i :: 0 <= i < |rows| && ColumnFromRow(rows[i], resolver) == Failure(r.error)
                                  && forall j :: 0 <= j < i ==> !RowOverflows(rows[j])
    decreases |rows|
  {
    if |rows| == 0 then Success([])
    else
      assert forall i :: 1 <= i < |rows| ==> rows[i] == rows[1..][i - 1];
      var column :- ColumnFromRow(rows[0], resolver);
      var rest :- ColumnsFromRows(rows[1..], resolver);
      Success([column] + rest)
  }

  /** The rows are in ascending `ordinal_position` order. */
  predicate SortedByOrdinal(rows: seq<ColumnRow>) {
    forall i, j :: 0 <= i < j < |rows| ==> rows[i].ordinalPosition <= rows[j].ordinalPosition
  }

  /** Places `x` before the first row whose ordinal is not smaller than its own. */
  function InsertByOrdinal(x: ColumnRow, s: seq<ColumnRow>): (r: seq<ColumnRow>)
    requires SortedByOrdinal(s)
    ensures |r| == |s| + 1
    ensures r[0] == x || (|s| > 0 && r[0] == s[0])
    ensures SortedByOrdinal(r)
    ensures multiset(r) == multiset([x] + s)
    decreases |s|
  {
    if |s| == 0 || x.ordinalPosition <= s[0].ordinalPosition then
      SortedCons(x, s);
      [x] + s
    else
      SortedTail(s);
      var rest := InsertByOrdinal(x, s[1..]);
      InsertPastHead(x, s, rest);
      [s[0]] + rest
  }

  lemma SortedTail(s: seq<ColumnRow>)
    requires SortedByOrdinal(s) && |s| > 0
    ensures SortedByOrdinal(s[1..])
  {
  }

  /** Keeping the head in front of the insertion into the tail keeps the order and the rows. */
  lemma InsertPastHead(x: ColumnRow, s: seq<ColumnRow>, rest: seq<ColumnRow>)
    requires SortedByOrdinal(s) && |s| > 0 && x.ordinalPosition > s[0].ordinalPosition
    requires SortedByOrdinal(rest) && |rest| == |s|
    requires rest[0] == x || (|s| > 1 && rest[0] == s[1])
    requires multiset(rest) == multiset([x] + s[1..])
    ensures SortedByOrdinal([s[0]] + rest)
    ensures multiset([s[0]] + rest) == multiset([x] + s)
  {
    SortedCons(s[0], rest);
    assert s == [s[0]] + s[1..];
  }

  /** A row no later than the head of a sorted sequence can go in front of it. */
  lemma SortedCons(y: ColumnRow, rest: seq<ColumnRow>)
    requires SortedByOrdinal(rest)
    requires |rest| > 0 ==> y.ordinalPosition <= rest[0].ordinalPosition
    ensures SortedByOrdinal([y] + rest)
  {
    var r := [y] + rest;
    forall i, j | 0 <= i < j < |r|
      ensures r[i].ordinalPosition <= r[j].ordinalPosition
    {
      if i == 0 {
        assert r[j] == rest[j - 1];
        assert rest[0].ordinalPosition <= rest[j - 1].ordinalPosition;
      } else {
        assert r[i] == rest[i - 1] && r[j] == rest[j - 1];
      }
    }
  }

  /** `OrderBy(r => ordinal_position)`: a stable insertion sort on the ordinal. */
  function SortByOrdinal(rows: seq<ColumnRow>): (r: seq<ColumnRow>)
    ensures SortedByOrdinal(r)
    ensures multiset(r) == multiset(rows)
    decreases |rows|
  {
    if |rows| == 0 then []
    else
      assert rows == [rows[0]] + rows[1..];
      InsertByOrdinal(rows[0], SortByOrdinal(rows[1..]))
  }

  /** The test that selects the rows at one ordinal position. */
  function AtOrdinal(k: nat): ColumnRow -> bool {
    (row: ColumnRow) => row.ordinalPosition == k
  }

  /** Inserting keeps the rows of every ordinal in their original relative order,
      `x` first among its equals. */
  lemma {:induction false} InsertByOrdinalStable(x: ColumnRow, s: seq<ColumnRow>, k: nat)
    requires SortedByOrdinal(s)
    ensures Filter(InsertByOrdinal(x, s), AtOrdinal(k)) == Filter([x] + s, AtOrdinal(k))
    decreases |s|
  {
    if |s| > 0 && x.ordinalPosition > s[0].ordinalPosition {
      var p := AtOrdinal(k);
      var t := s[1..];
      InsertByOrdinalPastHead(x, s);
      InsertByOrdinalStable(x, t, k);
      FilterSwapHead(s[0], x, InsertByOrdinal(x, t), t, p);
      assert s == [s[0]] + t;
    }
  }

  /** Past a head with a smaller ordinal, insertion keeps the head and inserts into the tail. */
  lemma InsertByOrdinalPastHead(x: ColumnRow, s: seq<ColumnRow>)
    requires SortedByOrdinal(s)
    requires |s| > 0 && x.ordinalPosition > s[0].ordinalPosition
    ensures InsertByOrdinal(x, s) == [s[0]] + InsertByOrdinal(x, s[1..])
  {
  }

  /** The ordering is stable: the rows sharing an ordinal keep their relative order. */
  lemma {:induction false} SortByOrdinalStable(rows: seq<ColumnRow>, k: nat)
    ensures Filter(SortByOrdinal(rows), AtOrdinal(k)) == Filter(rows, AtOrdinal(k))
    decreases |rows|
  {
    if |rows| > 0 {
      var rest := SortByOrdinal(rows[1..]);
      SortByOrdinalStable(rows[1..], k);
      InsertByOrdinalStable(rows[0], rest, k);
      FilterCons(rows[0], rest, AtOrdinal(k));
      assert rows == [rows[0]] + rows[1..];
      FilterCons(rows[0], rows[1..], AtOrdinal(k));
    }
  }

  /** `GetTableDefinition`: the rows ordered by ordinal position, each mapped to a
      column whose ordinal is set from its row. */
  function GetTableDefinition(rows: seq<ColumnRow>, resolver: TypeResolver): (r: Result<seq<MySqlColumn>, MetadataError>)
    ensures r.Success? <==> forall i :: 0 <= i < |rows| ==> !RowOverflows(rows[i])
    ensures r.Failure? ==> r.error.Overflow? && exists i :: 0 <= i < |rows| && FieldOverflows(rows[i], r.error.field)
    ensures r.Success? ==>
              && |r.value| == |rows|
              && (forall i, j :: 0 <= i < j < |r.value| ==> r.value[i].ordinal <= r.value[j].ordinal)
              && (forall i :: 0 <= i < |r.value| ==> ColumnFromRow(SortByOrdinal(rows)[i], resolver) == Success(r.value[i]))
  {
    var sorted := SortByOrdinal(rows);
    var r := ColumnsFromRows(sorted, resolver);
    PermutationKeepsOverflows(rows, sorted);
    if r.Success? then
      MappedOrdinalsSorted(sorted, r.value, resolver);
      r
    else
      FailingRowIsInput(rows, sorted, r.error, resolver);
      r
  }

  /** A reordering holds the same rows, so the same overflows. */
  lemma PermutationKeepsOverflows(rows: seq<ColumnRow>, sorted: seq<ColumnRow>)
    requires multiset(sorted) == multiset(rows)
    ensures |sorted| == |rows|
    ensures (forall i :: 0 <= i < |sorted| ==> !RowOverflows(sorted[i])) <==> (forall i :: 0 <= i < |rows| ==> !RowOverflows(rows[i]))
  {
    assert |sorted| == |multiset(sorted)| == |multiset(rows)| == |rows|;
    if exists i :: 0 <= i < |sorted| && RowOverflows(sorted[i]) {
      var i :| 0 <= i < |sorted| && RowOverflows(sorted[i]);
      assert sorted[i] in multiset(rows);
      var j :| 0 <= j < |rows| && rows[j] == sorted[i];
    }
    if exists i :: 0 <= i < |rows| && RowOverflows(rows[i]) {
      var i :| 0 <= i < |rows| && RowOverflows(rows[i]);
      assert rows[i] in multiset(sorted);
      var j :| 0 <= j < |sorted| && sorted[j] == rows[i];
    }
  }

  /** Columns mapped from rows in ordinal order carry ascending ordinals. */
  lemma MappedOrdinalsSorted(sorted: seq<ColumnRow>, columns: seq<MySqlColumn>, resolver: TypeResolver)
    requires SortedByOrdinal(sorted)
    requires |columns| == |sorted| && forall i :: 0 <= i < |sorted| ==> ColumnFromRow(sorted[i], resolver) == Success(columns[i])
    ensures forall i, j :: 0 <= i < j < |columns| ==> columns[i].ordinal <= columns[j].ordinal
  {
    forall i, j | 0 <= i < j < |columns|
      ensures columns[i].ordinal <= columns[j].ordinal
    {
      assert columns[i].ordinal == sorted[i].ordinalPosition;
      assert columns[j].ordinal == sorted[j].ordinalPosition;
    }
  }

  /** The row whose conversion raised is one of the input rows. */
  lemma FailingRowIsInput(rows: seq<ColumnRow>, sorted: seq<ColumnRow>, error: MetadataError, resolver: TypeResolver)
    requires multiset(sorted) == multiset(rows)
    requires exists i :: 0 <= i < |sorted| && ColumnFromRow(sorted[i], resolver) == Failure(error)
    ensures error.Overflow? && exists i :: 0 <= i < |rows| && FieldOverflows(rows[i], error.field)
  {
    var i :| 0 <= i < |sorted| && ColumnFromRow(sorted[i], resolver) == Failure(error);
    assert sorted[i] in multiset(rows);
    var j :| 0 <= j < |rows| && rows[j] == sorted[i];
    assert FieldOverflows(rows[j], error.field);
  }

  // ---------------------------------------------------------------------------
  // Relations
  // ---------------------------------------------------------------------------

  /** One row of the foreign-key query: one column pair of one foreign key. */
  datatype RelationRow = RelationRow(
    foreignKey: string,
    tableName: string,
    referenceTableName: string,
    columnName: string,
    referenceColumnName: string,
    foreignKeyOrder: int)

  /** The grouping key: the foreign key's name and the two tables it links. */
  datatype RelationKey = RelationKey(name: string, tableName: string, referenceTableName: string)

  datatype RelationColumn = RelationColumn(keyColumnName: string, referenceColumnName: string, order: int)

  datatype RelationDefinition = RelationDefinition(
    foreignKey: string,
    tableName: string,
    referenceTableName: string,
    columns: seq<RelationColumn>)

  function KeyOf(row: RelationRow): RelationKey {
    RelationKey(row.foreignKey, row.tableName, row.referenceTableName)
  }

  /** The test that selects the rows of one group. */
  function HasKey(k: RelationKey): RelationRow -> bool {
    (row: RelationRow) => KeyOf(row) == k
  }

  /** `a` is the first row with key `k`. */
  predicate FirstWithKey(rows: seq<RelationRow>, k: RelationKey, a: int) {
    0 <= a < |rows| && KeyOf(rows[a]) == k && forall b :: 0 <= b < a ==> KeyOf(rows[b]) != k
  }

  /** Some row has key `k`, so it has a first one. */
  ghost predicate KeyOccurs(rows: seq<RelationRow>, k: RelationKey) {
    exists a :: FirstWithKey(rows, k, a)
  }

  /** The group keys of `GroupBy`, each once, in order of first occurrence. */
  function DistinctKeys(rows: seq<RelationRow>): (r: seq<RelationKey>)
    ensures forall i, j :: 0 <= i < j < |r| ==> r[i] != r[j]
    ensures forall i :: 0 <= i < |rows| ==> KeyOf(rows[i]) in r
    ensures forall i :: 0 <= i < |r| ==> KeyOccurs(rows, r[i])
    ensures forall i, j, a, b :: 0 <= i < j < |r| && FirstWithKey(rows, r[i], a) && FirstWithKey(rows, r[j], b) ==> a < b
    decreases |rows|
  {
    if |rows| == 0 then []
    else
      var s := rows[..|rows| - 1];
      var x := rows[|rows| - 1];
      var keys := DistinctKeys(s);
      assert rows == s + [x];
      FirstWithKeyExtends(s, x);
      KeysStillFirst(s, x, keys);
      if KeyOf(x) in keys then keys
      else
        assert FirstWithKey(rows, KeyOf(x), |rows| - 1);
        keys + [KeyOf(x)]
  }

  /** The first occurrences of the keys of `s` survive appending a row. */
  lemma KeysStillFirst(s: seq<RelationRow>, x: RelationRow, keys: seq<RelationKey>)
    requires forall i :: 0 <= i < |keys| ==> KeyOccurs(s, keys[i])
    ensures forall i :: 0 <= i < |keys| ==> KeyOccurs(s + [x], keys[i])
  {
    forall i | 0 <= i < |keys|
      ensures KeyOccurs(s + [x], keys[i])
    {
      KeyStillFirst(s, x, keys[i]);
    }
  }

  lemma KeyStillFirst(s: seq<RelationRow>, x: RelationRow, k: RelationKey)
    requires KeyOccurs(s, k)
    ensures KeyOccurs(s + [x], k)
  {
    var a :| FirstWithKey(s, k, a);
    FirstWithKeyExtends(s, x);
    assert FirstWithKey(s + [x], k, a);
  }

  /** Appending a row leaves the first occurrence of every earlier key where it was. */
  lemma FirstWithKeyExtends(s: seq<RelationRow>, x: RelationRow)
    ensures forall k, a :: FirstWithKey(s, k, a) ==> FirstWithKey(s + [x], k, a)
    ensures forall k, a :: FirstWithKey(s + [x], k, a) && a < |s| ==> FirstWithKey(s, k, a)
    ensures forall k, a :: FirstWithKey(s + [x], k, a) && a == |s| ==> forall i :: 0 <= i < |s| ==> KeyOf(s[i]) != k
  {
    var rows := s + [x];
    assert forall b :: 0 <= b < |s| ==> rows[b] == s[b];
  }

  /** Converts a `ForeignKeyOrder` cell with `Convert.ToInt32`. */
  function OrderToInt32(order: int): (r: Result<int, MetadataError>)
    ensures r.Failure? <==> !(Int32Min <= order <= Int32Max)
    ensures r.Success? ==> r.value == order
  {
    if Int32Min <= order <= Int32Max then Success(order) else Failure(Overflow("ForeignKeyOrder"))
  }

  predicate OrderOverflows(row: RelationRow) {
    !(Int32Min <= row.foreignKeyOrder <= Int32Max)
  }

  /** The `Select` over one group's rows. */
  function RelationColumns(group: seq<RelationRow>): (r: Result<seq<RelationColumn>, MetadataError>)
    ensures r.Success? <==> forall i :: 0 <= i < |group| ==> !OrderOverflows(group[i])
    ensures r.Success? ==> |r.value| == |group| && forall i :: 0 <= i < |group| ==>
              r.value[i] == RelationColumn(group[i].columnName, group[i].referenceColumnName, group[i].foreignKeyOrder)
    decreases |group|
  {
    if |group| == 0 then Success([])
    else
      assert forall i :: 1 <= i < |group| ==> group[i] == group[1..][i - 1];
      var order :- OrderToInt32(group[0].foreignKeyOrder);
      var rest :- RelationColumns(group[1..]);
      Success([RelationColumn(group[0].columnName, group[0].referenceColumnName, order)] + rest)
  }

  /** The rows of key `k` convert to relation columns. */
  predicate GroupConverts(rows: seq<RelationRow>, k: RelationKey) {
    RelationColumns(Filter(rows, HasKey(k))).Success?
  }

  /** `d` is the relation of key `k`: its names and the converted rows of its group. */
  predicate DefinesGroup(rows: seq<RelationRow>, k: RelationKey, d: RelationDefinition) {
    && d.foreignKey == k.name
    && d.tableName == k.tableName
    && d.referenceTableName == k.referenceTableName
    && Success(d.columns) == RelationColumns(Filter(rows, HasKey(k)))
  }

  /** One relation per key, in key order, each with the columns of its group. */
  function RelationsFor(rows: seq<RelationRow>, keys: seq<RelationKey>): (r: Result<seq<RelationDefinition>, MetadataError>)
    ensures r.Success? <==> forall i :: 0 <= i < |keys| ==> GroupConverts(rows, keys[i])
    ensures r.Success? ==> |r.value| == |keys| && forall i :: 0 <= i < |keys| ==> DefinesGroup(rows, keys[i], r.value[i])
    decreases |keys|
  {
    if |keys| == 0 then Success([])
    else
      assert forall i :: 1 <= i < |keys| ==> keys[i] == keys[1..][i - 1];
      var k := keys[0];
      var columns :- RelationColumns(Filter(rows, HasKey(k)));
      var rest :- RelationsFor(rows, keys[1..]);
      Success([RelationDefinition(k.name, k.tableName, k.referenceTableName, columns)] + rest)
  }

  /** `d` is the relation of the non-empty `group` of key `k`: it carries the key's
      names and one column per group row, in row order. */
  predicate ConvertedGroup(group: seq<RelationRow>, k: RelationKey, d: RelationDefinition) {
    && |group| > 0
    && KeyOf(group[0]) == k
    && d.foreignKey == k.name
    && d.tableName == k.tableName
    && d.referenceTableName == k.referenceTableName
    && |d.columns| == |group|
    && forall j :: 0 <= j < |group| ==>
         d.columns[j] == RelationColumn(group[j].columnName, group[j].referenceColumnName, group[j].foreignKeyOrder)
  }

  /** `GetTableRelations`: no relation for a null or empty result; otherwise one
      relation per distinct (foreign key, table, referenced table), in order of first
      occurrence, whose columns are that group's rows in row order. */
  function GetTableRelations(rows: Option<seq<RelationRow>>): (r: Result<seq<RelationDefinition>, MetadataError>)
    ensures rows.None? || |rows.value| == 0 ==> r == Success([])
    ensures r.Failure? <==> rows.Some? && exists i :: 0 <= i < |rows.value| && OrderOverflows(rows.value[i])
    ensures r.Success? && rows.Some? ==>
              var keys := DistinctKeys(rows.value);
              && |r.value| == |keys|
              && forall i :: 0 <= i < |keys| ==> ConvertedGroup(Filter(rows.value, HasKey(keys[i])), keys[i], r.value[i])
  {
    if rows.None? || |rows.value| == 0 then Success([])
    else
      var keys := DistinctKeys(rows.value);
      OverflowSurfaces(rows.value, keys);
      var r := RelationsFor(rows.value, keys);
      if r.Success? then RelationsAreConvertedGroups(rows.value, keys); r else r
  }

  /** Each relation built for the distinct keys is its group, converted. */
  lemma RelationsAreConvertedGroups(rows: seq<RelationRow>, keys: seq<RelationKey>)
    requires keys == DistinctKeys(rows)
    requires forall i :: 0 <= i < |rows| ==> !OrderOverflows(rows[i])
    ensures RelationsFor(rows, keys).Success?
    ensures forall i :: 0 <= i < |keys| ==>
              ConvertedGroup(Filter(rows, HasKey(keys[i])), keys[i], RelationsFor(rows, keys).value[i])
  {
    OverflowSurfaces(rows, keys);
    GroupsNonEmpty(rows, keys);
  }

  /** Every group of a key that some row has is non-empty. */
  lemma GroupsNonEmpty(rows: seq<RelationRow>, keys: seq<RelationKey>)
    requires keys == DistinctKeys(rows)
    ensures forall i :: 0 <= i < |keys| ==> |Filter(rows, HasKey(keys[i]))| > 0 && KeyOf(Filter(rows, HasKey(keys[i]))[0]) == keys[i]
  {
    forall i | 0 <= i < |keys|
      ensures |Filter(rows, HasKey(keys[i]))| > 0 && KeyOf(Filter(rows, HasKey(keys[i]))[0]) == keys[i]
    {
      FilterMembers(rows, HasKey(keys[i]));
      var a :| FirstWithKey(rows, keys[i], a);
      assert HasKey(keys[i])(rows[a]);
    }
  }

  /** Some group fails to convert exactly when some row's order overflows. */
  lemma OverflowSurfaces(rows: seq<RelationRow>, keys: seq<RelationKey>)
    requires keys == DistinctKeys(rows)
    ensures (forall i :: 0 <= i < |keys| ==> GroupConverts(rows, keys[i]))
            <==> forall i :: 0 <= i < |rows| ==> !OrderOverflows(rows[i])
  {
    forall i | 0 <= i < |rows| && OrderOverflows(rows[i])
      ensures exists j :: 0 <= j < |keys| && !GroupConverts(rows, keys[j])
    {
      OverflowingRowFailsGroup(rows, keys, i);
    }
    forall j | 0 <= j < |keys|
      ensures var group := Filter(rows, HasKey(keys[j]));
              forall g :: 0 <= g < |group| ==> group[g] in rows
    {
      FilterMembers(rows, HasKey(keys[j]));
    }
  }

  /** An overflowing row makes the conversion of its own group fail. */
  lemma OverflowingRowFailsGroup(rows: seq<RelationRow>, keys: seq<RelationKey>, i: int)
    requires keys == DistinctKeys(rows)
    requires 0 <= i < |rows| && OrderOverflows(rows[i])
    ensures KeyOf(rows[i]) in keys
    ensures !RelationColumns(Filter(rows, HasKey(KeyOf(rows[i])))).Success?
  {
    FilterMembers(rows, HasKey(KeyOf(rows[i])));
    assert HasKey(KeyOf(rows[i]))(rows[i]);
  }

  /** The number of rows the groups of `keys` hold together. */
  function GroupSizes(rows: seq<RelationRow>, keys: seq<RelationKey>): nat
    decreases |keys|
  {
    if |keys| == 0 then 0 else |Filter(rows, HasKey(keys[0]))| + GroupSizes(rows, keys[1..])
  }

  lemma {:induction false} GroupSizesConcat(rows: seq<RelationRow>, a: seq<RelationKey>, b: seq<RelationKey>)
    ensures GroupSizes(rows, a + b) == GroupSizes(rows, a) + GroupSizes(rows, b)
    decreases |a|
  {
    if |a| > 0 {
      assert (a + b)[1..] == a[1..] + b;
      GroupSizesConcat(rows, a[1..], b);
    } else {
      assert a + b == b;
    }
  }

  /** One more row adds one to the group of its key and to no other. */
  lemma {:induction false} GroupSizesSnoc(s: seq<RelationRow>, x: RelationRow, keys: seq<RelationKey>)
    requires forall i, j :: 0 <= i < j < |keys| ==> keys[i] != keys[j]
    ensures GroupSizes(s + [x], keys) == GroupSizes(s, keys) + (if KeyOf(x) in keys then 1 else 0)
    decreases |keys|
  {
    if |keys| > 0 {
      assert (s + [x])[..|s + [x]| - 1] == s;
      assert KeyOf(x) in keys[1..] ==> KeyOf(x) != keys[0];
      assert KeyOf(x) in keys <==> KeyOf(x) == keys[0] || KeyOf(x) in keys[1..];
      GroupSizesSnoc(s, x, keys[1..]);
    }
  }

  /** The grouping partitions the rows: the groups together hold every row exactly once. */
  lemma {:induction false} GroupsPartitionRows(rows: seq<RelationRow>)
    ensures GroupSizes(rows, DistinctKeys(rows)) == |rows|
    decreases |rows|
  {
    if |rows| > 0 {
      var s := rows[..|rows| - 1];
      var x := rows[|rows| - 1];
      var keys := DistinctKeys(s);
      assert rows == s + [x];
      GroupsPartitionRows(s);
      GroupSizesSnoc(s, x, keys);
      if KeyOf(x) !in keys {
        assert DistinctKeys(rows) == keys + [KeyOf(x)];
        GroupSizesConcat(rows, keys, [KeyOf(x)]);
        NewKeyGroup(s, x);
        assert GroupSizes(rows, [KeyOf(x)]) == 1 by {
          assert [KeyOf(x)][1..] == [];
        }
      } else {
        assert DistinctKeys(rows) == keys;
      }
    }
  }

  /** A row whose key no earlier row has starts a group of its own. */
  lemma NewKeyGroup(s: seq<RelationRow>, x: RelationRow)
    requires KeyOf(x) !in DistinctKeys(s)
    ensures |Filter(s + [x], HasKey(KeyOf(x)))| == 1
  {
    var group := Filter(s, HasKey(KeyOf(x)));
    assert group == [];
    assert (s + [x])[..|s + [x]| - 1] == s;
  }

  /** Every relation's columns come to as many as there are rows: no row is lost or
      counted twice. */
  lemma RelationsCoverRows(rows: seq<RelationRow>)
    requires forall i :: 0 <= i < |rows| ==> !OrderOverflows(rows[i])
    ensures GetTableRelations(Some(rows)).Success?
    ensures ColumnCount(GetTableRelations(Some(rows)).value) == |rows|
  {
    var relations := GetTableRelations(Some(rows)).value;
    var keys := DistinctKeys(rows);
    GroupsPartitionRows(rows);
    if |rows| > 0 {
      ColumnCountMatches(rows, keys, relations);
    }
  }

  function ColumnCount(relations: seq<RelationDefinition>): nat
    decreases |relations|
  {
    if |relations| == 0 then 0 else |relations[0].columns| + ColumnCount(relations[1..])
  }

  lemma {:induction false} ColumnCountMatches(rows: seq<RelationRow>, keys: seq<RelationKey>, relations: seq<RelationDefinition>)
    requires |relations| == |keys|
    requires forall i :: 0 <= i < |keys| ==> |relations[i].columns| == |Filter(rows, HasKey(keys[i]))|
    ensures ColumnCount(relations) == GroupSizes(rows, keys)
    decreases |keys|
  {
    if |keys| > 0 {
      ColumnCountMatches(rows, keys[1..], relations[1..]);
    }
  }

  // ---------------------------------------------------------------------------
  // Primary keys
  // ---------------------------------------------------------------------------

  /** One row of the primary-key query. */
  datatype KeyRow = KeyRow(columnName: string, ordinalPosition: nat)

  /** A primary-key column: a string-typed column carrying its name and ordinal. */
  datatype KeyColumn = KeyColumn(name: string, ordinal: int)

  function KeyColumns(rows: seq<KeyRow>): (r: Result<seq<KeyColumn>, MetadataError>)
    ensures r.Success? <==> forall i :: 0 <= i < |rows| ==> rows[i].ordinalPosition <= Int32Max
    ensures r.Failure? ==> r.error == Overflow("ORDINAL_POSITION")
    ensures r.Success? ==> |r.value| == |rows| && forall i :: 0 <= i < |rows| ==>
              r.value[i].name == rows[i].columnName && r.value[i].ordinal == rows[i].ordinalPosition
    decreases |rows|
  {
    if |rows| == 0 then Success([])
    else
      assert forall i :: 1 <= i < |rows| ==> rows[i] == rows[1..][i - 1];
      if rows[0].ordinalPosition > Int32Max then Failure(Overflow("ORDINAL_POSITION"))
      else
        var rest :- KeyColumns(rows[1..]);
        Success([KeyColumn(rows[0].columnName, rows[0].ordinalPosition)] + rest)
  }

  /** `GetTablePrimaryKeys`: raises when the key result is null or has no row;
      otherwise one key column per row, in row order, with its ordinal set. */
  function GetTablePrimaryKeys(rows: Option<seq<KeyRow>>): (r: Result<seq<KeyColumn>, MetadataError>)
    ensures r == Failure(NoPrimaryKeys) <==> rows.None? || |rows.value| == 0
    ensures r.Success? <==> rows.Some? && |rows.value| > 0 && forall i :: 0 <= i < |rows.value| ==> rows.value[i].ordinalPosition <= Int32Max
    ensures r.Success? ==> |r.value| == |rows.value| && forall i :: 0 <= i < |r.value| ==>
              r.value[i].name == rows.value[i].columnName && r.value[i].ordinal == rows.value[i].ordinalPosition
  {
    if rows.None? || |rows.value| == 0 then Failure(NoPrimaryKeys)
    else KeyColumns(rows.value)
  }
}

=== FILE: seqs.dfy ===
/** Order-preserving selection over sequences, the reference against which
    the LINQ `Where`/`GroupBy` pipelines of the model are stated. */
module Seqs {

  /** The elements of `s` satisfying `p`, in their original order. */
  function Filter<T>(s: seq<T>, p: T -> bool): (r: seq<T>)
    ensures |r| <= |s|
  {
    if |s| == 0 then []
    else Filter(s[..|s| - 1], p) + (if p(s[|s| - 1]) then [s[|s| - 1]] else [])
  }

  /** The filter keeps exactly the elements that satisfy the test: each kept element
      comes from `s` and satisfies `p`, and each element of `s` satisfying `p` is kept. */
  lemma {:induction false} FilterMembers<T>(s: seq<T>, p: T -> bool)
    ensures forall i :: 0 <= i < |Filter(s, p)| ==> Filter(s, p)[i] in s && p(Filter(s, p)[i])
    ensures forall i :: 0 <= i < |s| && p(s[i]) ==> s[i] in Filter(s, p)
    decreases |s|
  {
    if |s| > 0 {
      var init := s[..|s| - 1];
      FilterMembers(init, p);
      assert forall i :: 0 <= i < |init| ==> s[i] == init[i];
    }
  }

  /** Filtering distributes over concatenation. */
  lemma {:induction false} FilterConcat<T>(a: seq<T>, b: seq<T>, p: T -> bool)
    ensures Filter(a + b, p) == Filter(a, p) + Filter(b, p)
    decreases |b|
  {
    if |b| == 0 {
      assert a + b == a;
    } else {
      var b' := b[..|b| - 1];
      assert (a + b)[..|a + b| - 1] == a + b';
      assert (a + b)[|a + b| - 1] == b[|b| - 1];
      FilterConcat(a, b', p);
    }
  }

  /** Filtering a sequence that starts with `x`: `x` is kept exactly when it satisfies `p`. */
  lemma {:induction false} FilterCons<T>(x: T, s: seq<T>, p: T -> bool)
    ensures Filter([x] + s, p) == (if p(x) then [x] else []) + Filter(s, p)
  {
    FilterConcat([x], s, p);
    assert [x][..0] == [];
    assert Filter([x], p) == Filter([], p) + (if p(x) then [x] else []);
  }

  /** Moving `a` past `b` changes no filter that keeps at most one of them. */
  lemma FilterSwapHead<T>(a: T, b: T, u: seq<T>, v: seq<T>, p: T -> bool)
    requires Filter(u, p) == Filter([b] + v, p)
    requires !(p(a) && p(b))
    ensures Filter([a] + u, p) == Filter([b] + ([a] + v), p)
  {
    FilterCons(a, u, p);
    FilterCons(b, v, p);
    FilterCons(a, v, p);
    FilterCons(b, [a] + v, p);
  }

  /** Two tests that agree on every element select the same elements. */
  lemma {:induction false} FilterSameTest<T>(s: seq<T>, p: T -> bool, q: T -> bool)
    requires forall i :: 0 <= i < |s| ==> p(s[i]) == q(s[i])
    ensures Filter(s, p) == Filter(s, q)
    decreases |s|
  {
    if |s| > 0 {
      FilterSameTest(s[..|s| - 1], p, q);
    }
  }
}

=== FILE: sync_rows.dfy ===
/** The in-memory row collection of one synchronised table (`SyncRows`):
    an ordered list of rows bound to a table schema.

    The collection is modelled as an immutable value; every mutating
    operation returns the collection it leaves behind. Row identity is
    value equality, where the original compares row references. */
module Rows {
  import opened Wrappers
  import opened Seqs

  /** A CLR type as far as the cell checks can tell: `object`, `string`, or any other type. */
  datatype TypeId = ObjectType | StringType | NamedType(name: string)

  /** A boxed cell value: its runtime type and an opaque payload.
      Two values are `Equals` exactly when both parts agree. */
  datatype Value = Value(typ: TypeId, payload: string)

  /** A cell; `None` is a `null` cell. */
  type Cell = Option<Value>

  /** `System.Data.DataRowState`. */
  datatype RowState = Detached | Unchanged | Added | Deleted | Modified

  /** The state given to rows built from raw values when the caller names none. */
  const DefaultRowState: RowState := Unchanged

  datatype SyncColumn = SyncColumn(name: string, dataType: TypeId)

  /** A table schema: its columns and the names of its primary-key columns, in key order. */
  datatype SyncTable = SyncTable(name: string, columns: seq<SyncColumn>, primaryKeys: seq<string>)

  /** A row: its cells, its state tag and the table it is bound to (`null` when detached). */
  datatype SyncRow = SyncRow(values: seq<Cell>, state: RowState, table: Option<SyncTable>)

  /** The collection: its table and its rows in insertion order. */
  datatype SyncRows = SyncRows(table: SyncTable, rows: seq<SyncRow>)

  /** The exceptions the collection raises. */
  datatype SyncError =
    | RowLengthMismatch(rowLength: nat, columnCount: nat)
    | IncompatibleCell(index: nat)
    | PrimaryKeyCountMismatch
    | NullReference
    | UnknownColumn(name: string)
    | IndexOutOfRange(position: int)

  /** Whether some non-default type converter of the column type (first
      argument) can convert from the cell type (second argument): the
      `GetConverter(..).CanConvertFrom(..)` reflection query. */
  type ConverterOracle = (TypeId, TypeId) -> bool

  /** Every row held by the collection is bound to the collection's table. */
  predicate Bound(c: SyncRows) {
    forall i :: 0 <= i < |c.rows| ==> c.rows[i].table == Some(c.table)
  }

  function Count(c: SyncRows): nat {
    |c.rows|
  }

  // ---------------------------------------------------------------------------
  // Cell validation
  // ---------------------------------------------------------------------------

  /** A cell fits its column when it is null, has the column's type, the column
      is typed `object` or `string`, or a converter accepts the cell's type. */
  predicate CellAccepted(column: SyncColumn, cell: Cell, canConvert: ConverterOracle) {
    || cell.None?
    || cell.value.typ == column.dataType
    || column.dataType == ObjectType
    || column.dataType == StringType
    || canConvert(column.dataType, cell.value.typ)
  }

  /** A row fits a table: one cell per column, each accepted by its column. */
  predicate Fits(t: SyncTable, row: SyncRow, canConvert: ConverterOracle) {
    && |row.values| == |t.columns|
    && forall i :: 0 <= i < |row.values| ==> CellAccepted(t.columns[i], row.values[i], canConvert)
  }

  /** The cell loop of `TryEnsureData`, from index `from` on: stops at the first rejected cell. */
  function CheckCells(columns: seq<SyncColumn>, values: seq<Cell>, from: nat, canConvert: ConverterOracle)
    : (r: Result<(), SyncError>)
    requires |values| == |columns| && from <= |values|
    ensures r.Success? <==> forall i :: from <= i < |values| ==> CellAccepted(columns[i], values[i], canConvert)
    ensures r.Failure? ==>
              && r.error.IncompatibleCell?
              && from <= r.error.index < |values|
              && !CellAccepted(columns[r.error.index], values[r.error.index], canConvert)
              && forall i :: from <= i < r.error.index ==> CellAccepted(columns[i], values[i], canConvert)
    decreases |values| - from
  {
    if from == |values| then Success(())
    else if CellAccepted(columns[from], values[from], canConvert) then CheckCells(columns, values, from + 1, canConvert)
    else Failure(IncompatibleCell(from))
  }

  /** `TryEnsureData`: the row's arity must equal the column count, then each cell must be accepted. */
  function TryEnsureData(t: SyncTable, row: SyncRow, canConvert: ConverterOracle): (r: Result<(), SyncError>)
    ensures r.Success? <==> Fits(t, row, canConvert)
    ensures r.Failure? && r.error.RowLengthMismatch? <==> |row.values| != |t.columns|
    ensures r.Failure? && r.error.IncompatibleCell? ==>
              && r.error.index < |row.values| == |t.columns|
              && !CellAccepted(t.columns[r.error.index], row.values[r.error.index], canConvert)
              && forall i :: 0 <= i < r.error.index ==> CellAccepted(t.columns[i], row.values[i], canConvert)
  {
    if |row.values| != |t.columns| then Failure(RowLengthMismatch(|row.values|, |t.columns|))
    else CheckCells(t.columns, row.values, 0, canConvert)
  }

  // ---------------------------------------------------------------------------
  // Adding rows
  // ---------------------------------------------------------------------------

  /** `Add(object[], state)`: wraps the values in a row bound to the table and appends it, unchecked. */
  function AddValues(c: SyncRows, values: seq<Cell>, state: RowState := DefaultRowState): (r: SyncRows)
    ensures r.table == c.table
    ensures Count(r) == Count(c) + 1
    ensures r.rows[..Count(c)] == c.rows
    ensures r.rows[Count(c)].values == values && r.rows[Count(c)].state == state
    ensures r.rows[Count(c)].table == Some(c.table)
    ensures Bound(c) ==> Bound(r)
  {
    c.(rows := c.rows + [SyncRow(values, state, Some(c.table))])
  }

  /** `AddRange(IEnumerable<object[]>, state)`: appends one unchecked row per value array, in order. */
  function AddValuesRange(c: SyncRows, batch: seq<seq<Cell>>, state: RowState := DefaultRowState): (r: SyncRows)
    ensures r.table == c.table
    ensures Count(r) == Count(c) + |batch|
    ensures r.rows[..Count(c)] == c.rows
    ensures forall i :: 0 <= i < |batch| ==> r.rows[Count(c) + i] == SyncRow(batch[i], state, Some(c.table))
    ensures Bound(c) ==> Bound(r)
    decreases |batch|
  {
    if |batch| == 0 then c
    else AddValues(AddValuesRange(c, batch[..|batch| - 1], state), batch[|batch| - 1], state)
  }

  /** Rows added from raw values without a named state are `Unchanged`. */
  lemma AddValuesDefaultsToUnchanged(c: SyncRows, values: seq<Cell>, batch: seq<seq<Cell>>)
    ensures AddValues(c, values).rows[Count(c)].state == Unchanged
    ensures var r := AddValuesRange(c, batch);
            forall i :: Count(c) <= i < Count(r) ==> r.rows[i].state == Unchanged
  {
    var r := AddValuesRange(c, batch);
    forall i | Count(c) <= i < Count(r)
      ensures r.rows[i].state == Unchanged
    {
      assert r.rows[Count(c) + (i - Count(c))] == SyncRow(batch[i - Count(c)], Unchanged, Some(c.table));
    }
  }

  /** `row` rebound to table `t`, as `item.Table = this.Table` does. */
  function BindTo(row: SyncRow, t: SyncTable): SyncRow {
    row.(table := Some(t))
  }

  /** `Add(SyncRow)`: validates the row, binds it to the table and appends it;
      a rejected row raises the `TryEnsureData` error and nothing is appended. */
  function Add(c: SyncRows, row: SyncRow, canConvert: ConverterOracle): (r: Result<SyncRows, SyncError>)
    ensures r.Success? <==> Fits(c.table, row, canConvert)
    ensures r.Failure? ==> r.error == TryEnsureData(c.table, row, canConvert).error
    ensures r.Success? ==> r.value.table == c.table && r.value.rows == c.rows + [BindTo(row, c.table)]
    ensures r.Success? && Bound(c) ==> Bound(r.value)
  {
    var _ :- TryEnsureData(c.table, row, canConvert);
    Success(c.(rows := c.rows + [BindTo(row, c.table)]))
  }

  /** Rows rebound to table `t`, in order. */
  function BindAll(rows: seq<SyncRow>, t: SyncTable): seq<SyncRow>
  {
    seq(|rows|, i requires 0 <= i < |rows| => BindTo(rows[i], t))
  }

  /** What `AddRange(List<SyncRow>)` leaves behind: the collection, and the error it raised, if any. */
  datatype AddRangeOutcome = AddRangeOutcome(collection: SyncRows, error: Option<SyncError>)

  /** `r` is what appending `items` one by one to `c` leaves behind: with no error, every
      item fits and all are appended bound, in order; with an error, the first `k` items
      fit and stay appended, item `k` does not fit, and its `TryEnsureData` error is raised. */
  predicate AppendedUntilRejected(c: SyncRows, items: seq<SyncRow>, canConvert: ConverterOracle, r: AddRangeOutcome) {
    && r.collection.table == c.table
    && (r.error.None? <==> forall i :: 0 <= i < |items| ==> Fits(c.table, items[i], canConvert))
    && (r.error.None? ==> r.collection.rows == c.rows + BindAll(items, c.table))
    && (r.error.Some? ==>
          var k := Count(r.collection) - Count(c);
          && 0 <= k < |items|
          && r.collection.rows == c.rows + BindAll(items[..k], c.table)
          && (forall i :: 0 <= i < k ==> Fits(c.table, items[i], canConvert))
          && !Fits(c.table, items[k], canConvert)
          && r.error == Some(TryEnsureData(c.table, items[k], canConvert).error))
  }

  /** `AddRange(List<SyncRow>)`: validates and appends the items one by one;
      the first rejected item raises its error, and the items appended before it stay. */
  function AddRange(c: SyncRows, items: seq<SyncRow>, canConvert: ConverterOracle): (r: AddRangeOutcome)
    ensures AppendedUntilRejected(c, items, canConvert, r)
    ensures Bound(c) ==> Bound(r.collection)
    decreases |items|
  {
    if |items| == 0 then AddRangeOutcome(c, None)
    else
      match Add(c, items[0], canConvert)
      case Failure(e) => AddRangeOutcome(c, Some(e))
      case Success(c') =>
        var r := AddRange(c', items[1..], canConvert);
        AddRangeStep(c, items, canConvert, c', r);
        r
  }

  /** Appending the first item, then the rest, appends them all or stops at the first rejected one. */
  lemma AddRangeStep(c: SyncRows, items: seq<SyncRow>, canConvert: ConverterOracle, c': SyncRows, r: AddRangeOutcome)
    requires |items| > 0 && Add(c, items[0], canConvert) == Success(c')
    requires AppendedUntilRejected(c', items[1..], canConvert, r)
    ensures AppendedUntilRejected(c, items, canConvert, r)
  {
    BindAllCons(items, c.table);
    AllFitCons(c.table, items, canConvert);
    if r.error.Some? {
      AddRangeFailureShift(c.table, c.rows, items, r.collection.rows, Count(r.collection) - Count(c'), canConvert);
    }
  }

  /** Re-indexes the failure case of `AddRange` after its first item was appended. */
  lemma AddRangeFailureShift(t: SyncTable, before: seq<SyncRow>, items: seq<SyncRow>, after: seq<SyncRow>,
                             k: nat, canConvert: ConverterOracle)
    requires k + 1 < |items| && Fits(t, items[0], canConvert)
    requires after == before + [BindTo(items[0], t)] + BindAll(items[1..][..k], t)
    requires forall i :: 0 <= i < k ==> Fits(t, items[1..][i], canConvert)
    ensures after == before + BindAll(items[..k + 1], t)
    ensures forall i :: 0 <= i < k + 1 ==> Fits(t, items[i], canConvert)
  {
    var head := items[..k + 1];
    assert head[1..] == items[1..][..k];
    BindAllCons(head, t);
    assert after == before + BindAll(head, t);
    forall i | 0 <= i < k + 1
      ensures Fits(t, items[i], canConvert)
    {
      if i > 0 {
        assert items[i] == items[1..][i - 1];
      }
    }
  }

  /** All items fit exactly when the first one does and all the others do. */
  lemma AllFitCons(t: SyncTable, items: seq<SyncRow>, canConvert: ConverterOracle)
    requires |items| > 0
    ensures (forall i :: 0 <= i < |items| ==> Fits(t, items[i], canConvert))
            <==> Fits(t, items[0], canConvert) && forall i :: 0 <= i < |items[1..]| ==> Fits(t, items[1..][i], canConvert)
  {
    assert forall i :: 1 <= i < |items| ==> items[i] == items[1..][i - 1];
  }

  /** Binding a non-empty sequence binds its head, then its tail. */
  lemma BindAllCons(rows: seq<SyncRow>, t: SyncTable)
    requires |rows| > 0
    ensures BindAll(rows, t) == [BindTo(rows[0], t)] + BindAll(rows[1..], t)
  {
  }

  // ---------------------------------------------------------------------------
  // Positional operations
  // ---------------------------------------------------------------------------

  /** `Insert(index, row)`: binds the row to the table and places it at `index`,
      without any arity or type check; an index outside `0..Count` raises. */
  function Insert(c: SyncRows, index: int, row: SyncRow): (r: Result<SyncRows, SyncError>)
    ensures r.Success? <==> 0 <= index <= Count(c)
    ensures r.Failure? ==> r.error == IndexOutOfRange(index)
    ensures r.Success? ==>
              && r.value.table == c.table
              && Count(r.value) == Count(c) + 1
              && r.value.rows[index] == BindTo(row, c.table)
              && r.value.rows[..index] == c.rows[..index]
              && r.value.rows[index + 1..] == c.rows[index..]
    ensures r.Success? && Bound(c) ==> Bound(r.value)
  {
    if 0 <= index <= |c.rows| then
      Success(c.(rows := c.rows[..index] + [BindTo(row, c.table)] + c.rows[index..]))
    else Failure(IndexOutOfRange(index))
  }

  /** `RemoveAt(index)`: removes the row at `index`; an index outside `0..Count-1` raises. */
  function RemoveAt(c: SyncRows, index: int): (r: Result<SyncRows, SyncError>)
    ensures r.Success? <==> 0 <= index < Count(c)
    ensures r.Failure? ==> r.error == IndexOutOfRange(index)
    ensures r.Success? ==>
              && r.value.table == c.table
              && Count(r.value) + 1 == Count(c)
              && r.value.rows[..index] == c.rows[..index]
              && r.value.rows[index..] == c.rows[index + 1..]
    ensures r.Success? && Bound(c) ==> Bound(r.value)
  {
    if 0 <= index < |c.rows| then Success(c.(rows := c.rows[..index] + c.rows[index + 1..]))
    else Failure(IndexOutOfRange(index))
  }

  /** `IndexOf(row)`: the position of the first occurrence of `row`, or -1. */
  function IndexOf(c: SyncRows, row: SyncRow): (r: int)
    ensures -1 <= r < Count(c)
    ensures r >= 0 <==> row in c.rows
    ensures r >= 0 ==> c.rows[r] == row && forall j :: 0 <= j < r ==> c.rows[j] != row
  {
    FirstIndex(c.rows, row)
  }

  function FirstIndex(rows: seq<SyncRow>, row: SyncRow): (r: int)
    ensures -1 <= r < |rows|
    ensures r >= 0 <==> row in rows
    ensures r >= 0 ==> rows[r] == row && forall j :: 0 <= j < r ==> rows[j] != row
    decreases |rows|
  {
    if |rows| == 0 then -1
    else if rows[0] == row then 0
    else
      var k := FirstIndex(rows[1..], row);
      assert forall j :: 1 <= j < |rows| ==> rows[j] == rows[1..][j - 1];
      if k == -1 then -1 else k + 1
  }

  /** `Remove(row)`: removes the first occurrence of `row` and reports whether there was one. */
  function Remove(c: SyncRows, row: SyncRow): (r: (SyncRows, bool))
    ensures r.1 <==> row in c.rows
    ensures r.0.table == c.table
    ensures !r.1 ==> r.0 == c
    ensures r.1 ==>
              var k := IndexOf(c, row);
              r.0.rows == c.rows[..k] + c.rows[k + 1..] && multiset(r.0.rows) + multiset{row} == multiset(c.rows)
    ensures Bound(c) ==> Bound(r.0)
  {
    var k := IndexOf(c, row);
    if k == -1 then (c, false)
    else
      assert c.rows == c.rows[..k] + [c.rows[k]] + c.rows[k + 1..];
      (c.(rows := c.rows[..k] + c.rows[k + 1..]), true)
  }

  // ---------------------------------------------------------------------------
  // Schema rebinding and clearing
  // ---------------------------------------------------------------------------

  /** `EnsureRows(t)`: the collection and every row it holds become bound to `t`;
      cells and states are untouched. */
  function EnsureRows(c: SyncRows, t: SyncTable): (r: SyncRows)
    ensures r.table == t
    ensures Bound(r)
    ensures Count(r) == Count(c)
    ensures forall i :: 0 <= i < Count(c) ==>
              r.rows[i].values == c.rows[i].values && r.rows[i].state == c.rows[i].state
  {
    SyncRows(t, BindAll(c.rows, t))
  }

  /** `Count` is the number of rows held: an append or an insert adds one, a removal
      takes one away, `Clear` leaves none, and rebinding keeps them all. */
  lemma CountTracksEdits(c: SyncRows, values: seq<Cell>, state: RowState, row: SyncRow, index: int,
                         t: SyncTable, canConvert: ConverterOracle)
    ensures Count(c) == |c.rows|
    ensures Count(AddValues(c, values, state)) == Count(c) + 1
    ensures Add(c, row, canConvert).Success? ==> Count(Add(c, row, canConvert).value) == Count(c) + 1
    ensures Insert(c, index, row).Success? ==> Count(Insert(c, index, row).value) == Count(c) + 1
    ensures RemoveAt(c, index).Success? ==> Count(RemoveAt(c, index).value) + 1 == Count(c)
    ensures Remove(c, row).1 ==> Count(Remove(c, row).0) + 1 == Count(c)
    ensures !Remove(c, row).1 ==> Count(Remove(c, row).0) == Count(c)
    ensures Count(Clear(c).collection) == 0
    ensures Count(EnsureRows(c, t)) == Count(c)
  {
  }

  /** What `Clear` leaves behind: the emptied collection, and the rows it held
      as they now stand (emptied and detached from any table). */
  datatype ClearOutcome = ClearOutcome(collection: SyncRows, detached: seq<SyncRow>)

  /** `Clear`: every held row is emptied and unbound, then the collection is emptied. */
  function Clear(c: SyncRows): (r: ClearOutcome)
    ensures Count(r.collection) == 0 && r.collection.table == c.table
    ensures |r.detached| == Count(c)
    ensures forall i :: 0 <= i < Count(c) ==>
              r.detached[i].values == [] && r.detached[i].table.None? && r.detached[i].state == c.rows[i].state
  {
    ClearOutcome(c.(rows := []),
                 seq(|c.rows|, i requires 0 <= i < |c.rows| => SyncRow([], c.rows[i].state, None)))
  }

  // ---------------------------------------------------------------------------
  // Primary-key lookup
  // ---------------------------------------------------------------------------

  /** The position of the first column of `t` called `name`. */
  function ColumnIndex(t: SyncTable, name: string): (r: Option<nat>)
    ensures r.Some? ==> r.value < |t.columns| && t.columns[r.value].name == name
    ensures r.None? <==> forall j :: 0 <= j < |t.columns| ==> t.columns[j].name != name
  {
    ColumnIndexFrom(t.columns, name, 0)
  }

  function ColumnIndexFrom(columns: seq<SyncColumn>, name: string, from: nat): (r: Option<nat>)
    requires from <= |columns|
    ensures r.Some? ==> from <= r.value < |columns| && columns[r.value].name == name
    ensures r.None? <==> forall j :: from <= j < |columns| ==> columns[j].name != name
    decreases |columns| - from
  {
    if from == |columns| then None
    else if columns[from].name == name then Some(from)
    else ColumnIndexFrom(columns, name, from + 1)
  }

  /** The row indexer by column name: resolves the name in the row's own table. */
  function CellByName(row: SyncRow, name: string): Result<Cell, SyncError> {
    match row.table
    case None => Failure(NullReference)
    case Some(t) =>
      match ColumnIndex(t, name)
      case None => Failure(UnknownColumn(name))
      case Some(i) => if i < |row.values| then Success(row.values[i]) else Failure(IndexOutOfRange(i))
  }

  /** The per-row test of `GetRowsByPrimaryKeys`: for each key name in order, reads
      the criteria cell, then the row cell, and calls `Equals` on the criteria
      cell (raising when it is null); stops at the first unequal key. */
  function KeysMatch(keys: seq<string>, criteria: SyncRow, row: SyncRow): Result<bool, SyncError>
    decreases |keys|
  {
    if |keys| == 0 then Success(true)
    else
      var cv :- CellByName(criteria, keys[0]);
      var rv :- CellByName(row, keys[0]);
      if cv.None? then Failure(NullReference)
      else if cv != rv then Success(false)
      else KeysMatch(keys[1..], criteria, row)
  }

  /** What the key test answers: true exactly when every key compares equal; false
      exactly when some key differs with all keys before it equal; and it raises only
      at a key that cannot be read or is null in the criteria, all keys before it equal. */
  lemma {:induction false} KeysMatchOutcome(keys: seq<string>, criteria: SyncRow, row: SyncRow)
    ensures KeysMatch(keys, criteria, row) == Success(true) <==>
              forall k :: 0 <= k < |keys| ==> KeyCellsEqual(keys[k], criteria, row)
    ensures KeysMatch(keys, criteria, row) == Success(false) <==>
              exists k :: 0 <= k < |keys| && EqualBefore(keys, k, criteria, row) && KeyCellsDiffer(keys[k], criteria, row)
    ensures KeysMatch(keys, criteria, row).Failure? ==>
              exists k :: 0 <= k < |keys| && EqualBefore(keys, k, criteria, row) && KeyCellsUnusable(keys[k], criteria, row)
    decreases |keys|
  {
    if |keys| > 0 {
      var rest := keys[1..];
      assert forall k :: 0 <= k < |rest| ==> rest[k] == keys[k + 1];
      EqualBeforeShift(keys, criteria, row);
      KeysMatchOutcome(rest, criteria, row);
      assert EqualBefore(keys, 0, criteria, row);
    }
  }

  /** Both sides can be read at key `name`, the criteria's cell is not null, and the cells are equal. */
  predicate KeyCellsEqual(name: string, criteria: SyncRow, row: SyncRow) {
    && CellByName(criteria, name).Success? && CellByName(criteria, name).value.Some?
    && CellByName(row, name) == CellByName(criteria, name)
  }

  /** Both sides can be read at key `name`, the criteria's cell is not null, and the cells differ. */
  predicate KeyCellsDiffer(name: string, criteria: SyncRow, row: SyncRow) {
    && CellByName(criteria, name).Success? && CellByName(criteria, name).value.Some?
    && CellByName(row, name).Success? && CellByName(row, name) != CellByName(criteria, name)
  }

  /** A side cannot be read at key `name`, or the criteria's cell is null: the test raises. */
  predicate KeyCellsUnusable(name: string, criteria: SyncRow, row: SyncRow) {
    !(CellByName(criteria, name).Success? && CellByName(row, name).Success? && CellByName(criteria, name).value.Some?)
  }

  /** Every key before position `k` compares equal. */
  predicate EqualBefore(keys: seq<string>, k: int, criteria: SyncRow, row: SyncRow)
    requires k <= |keys|
  {
    forall j :: 0 <= j < k ==> KeyCellsEqual(keys[j], criteria, row)
  }

  /** The keys before position `k + 1` compare equal exactly when the first does and
      the keys of the tail before `k` do. */
  lemma EqualBeforeShift(keys: seq<string>, criteria: SyncRow, row: SyncRow)
    requires |keys| > 0
    ensures forall k :: 0 <= k < |keys| - 1 ==>
              (EqualBefore(keys, k + 1, criteria, row) <==>
               KeyCellsEqual(keys[0], criteria, row) && EqualBefore(keys[1..], k, criteria, row))
  {
    var rest := keys[1..];
    forall k | 0 <= k < |keys| - 1
      ensures EqualBefore(keys, k + 1, criteria, row) <==>
              KeyCellsEqual(keys[0], criteria, row) && EqualBefore(keys[1..], k, criteria, row)
    {
      if EqualBefore(keys, k + 1, criteria, row) {
        forall j | 0 <= j < k
          ensures KeyCellsEqual(rest[j], criteria, row)
        {
          assert rest[j] == keys[j + 1];
        }
      }
      if KeyCellsEqual(keys[0], criteria, row) && EqualBefore(rest, k, criteria, row) {
        forall j | 0 <= j < k + 1
          ensures KeyCellsEqual(keys[j], criteria, row)
        {
          if j > 0 {
            assert keys[j] == rest[j - 1];
          }
        }
      }
    }
  }

  /** The test the lookup filters by: the key test succeeds with `true`. */
  function MatchesCriteria(keys: seq<string>, criteria: SyncRow): SyncRow -> bool {
    (x: SyncRow) => KeysMatch(keys, criteria, x) == Success(true)
  }

  /** Rows whose key test succeeds with `true`. */
  function SelectMatching(keys: seq<string>, criteria: SyncRow, rows: seq<SyncRow>): (r: Result<seq<SyncRow>, SyncError>)
    ensures r.Success? <==> forall i :: 0 <= i < |rows| ==> KeysMatch(keys, criteria, rows[i]).Success?
    ensures r.Success? ==> r.value == Filter(rows, MatchesCriteria(keys, criteria))
    decreases |rows|
  {
    if |rows| == 0 then Success([])
    else
      KeyTestsSucceedCons(keys, criteria, rows);
      var m :- KeysMatch(keys, criteria, rows[0]);
      var rest :- SelectMatching(keys, criteria, rows[1..]);
      assert rows == [rows[0]] + rows[1..];
      FilterCons(rows[0], rows[1..], MatchesCriteria(keys, criteria));
      Success((if m then [rows[0]] else []) + rest)
  }

  /** The key test succeeds on every row exactly when it does on the first and on every other. */
  lemma KeyTestsSucceedCons(keys: seq<string>, criteria: SyncRow, rows: seq<SyncRow>)
    requires |rows| > 0
    ensures (forall i :: 0 <= i < |rows| ==> KeysMatch(keys, criteria, rows[i]).Success?)
            <==> && KeysMatch(keys, criteria, rows[0]).Success?
                 && forall i :: 0 <= i < |rows[1..]| ==> KeysMatch(keys, criteria, rows[1..][i]).Success?
  {
    assert forall i :: 1 <= i < |rows| ==> rows[i] == rows[1..][i - 1];
  }

  /** `GetRowsByPrimaryKeys(criteria)`, evaluated in full: raises when the criteria row
      is unbound or its table has a different number of key columns; otherwise the
      rows whose key test succeeds, in order (raising if any row's test raises). */
  function GetRowsByPrimaryKeys(c: SyncRows, criteria: SyncRow): (r: Result<seq<SyncRow>, SyncError>)
    ensures criteria.table.None? ==> r == Failure(NullReference)
    ensures criteria.table.Some? && |criteria.table.value.primaryKeys| != |c.table.primaryKeys| ==>
              r == Failure(PrimaryKeyCountMismatch)
    ensures r.Success? ==>
              && |r.value| <= Count(c)
              && (forall i :: 0 <= i < |r.value| ==>
                    r.value[i] in c.rows && KeysMatch(c.table.primaryKeys, criteria, r.value[i]) == Success(true))
              && (forall i :: 0 <= i < Count(c) && KeysMatch(c.table.primaryKeys, criteria, c.rows[i]) == Success(true) ==>
                    c.rows[i] in r.value)
    ensures r.Success? ==> r.value == Filter(c.rows, MatchesCriteria(c.table.primaryKeys, criteria))
  {
    match criteria.table
    case None => Failure(NullReference)
    case Some(ct) =>
      if |ct.primaryKeys| != |c.table.primaryKeys| then Failure(PrimaryKeyCountMismatch)
      else
        FilterMembers(c.rows, MatchesCriteria(c.table.primaryKeys, criteria));
        SelectMatching(c.table.primaryKeys, criteria, c.rows)
  }

  /** A row can be read at every key name: it is bound, and each key names a column
      of its table that lies within the row. */
  predicate KeysReadable(keys: seq<string>, row: SyncRow) {
    && row.table.Some?
    && forall k :: 0 <= k < |keys| ==>
         var i := ColumnIndex(row.table.value, keys[k]);
         i.Some? && i.value < |row.values|
  }

  /** The cell read at a readable key name. */
  function KeyCell(row: SyncRow, name: string): Cell
    requires row.table.Some?
    requires var i := ColumnIndex(row.table.value, name); i.Some? && i.value < |row.values|
  {
    row.values[ColumnIndex(row.table.value, name).value]
  }

  /** Composite-key equality: every key cell of the row equals the criteria's. */
  predicate SameKey(keys: seq<string>, criteria: SyncRow, row: SyncRow)
    requires KeysReadable(keys, criteria) && KeysReadable(keys, row)
  {
    forall k :: 0 <= k < |keys| ==> KeyCell(criteria, keys[k]) == KeyCell(row, keys[k])
  }

  /** The intended selection: rows readable at every key whose composite key equals the criteria's. */
  function HasEqualKey(keys: seq<string>, criteria: SyncRow): SyncRow -> bool
    requires KeysReadable(keys, criteria)
  {
    (x: SyncRow) => KeysReadable(keys, x) && SameKey(keys, criteria, x)
  }

  /** When the criteria and the row can be read at every key and the criteria holds no
      null key cell, the short-circuiting key test raises nothing and answers exactly
      whether the whole composite key is equal, not only its first column. */
  lemma KeysMatchIsCompositeKeyEquality(keys: seq<string>, criteria: SyncRow, row: SyncRow)
    requires KeysReadable(keys, criteria) && KeysReadable(keys, row)
    requires forall k :: 0 <= k < |keys| ==> KeyCell(criteria, keys[k]).Some?
    ensures KeysMatch(keys, criteria, row) == Success(SameKey(keys, criteria, row))
  {
    forall k | 0 <= k < |keys|
      ensures !KeyCellsUnusable(keys[k], criteria, row)
      ensures KeyCellsEqual(keys[k], criteria, row) <==> KeyCell(criteria, keys[k]) == KeyCell(row, keys[k])
    {
      ReadableKeyCell(keys, k, criteria);
      ReadableKeyCell(keys, k, row);
    }
    var r := KeysMatch(keys, criteria, row);
    KeysMatchOutcome(keys, criteria, row);
    assert !exists k :: 0 <= k < |keys| && EqualBefore(keys, k, criteria, row) && KeyCellsUnusable(keys[k], criteria, row);
    assert r.Success?;
    assert r.value <==> forall k :: 0 <= k < |keys| ==> KeyCellsEqual(keys[k], criteria, row);
  }

  /** At a readable key, the row indexer yields the key cell. */
  lemma ReadableKeyCell(keys: seq<string>, k: int, row: SyncRow)
    requires KeysReadable(keys, row) && 0 <= k < |keys|
    ensures CellByName(row, keys[k]) == Success(KeyCell(row, keys[k]))
  {
  }

  /** The composite-key selection: with the same number of key columns on both sides,
      a criteria readable at every key with no null key cell, and a collection whose
      rows are all bound and readable, the lookup succeeds and returns exactly the
      rows with an equal composite key, in their original order. */
  lemma GetRowsByPrimaryKeysSelectsEqualKeys(c: SyncRows, criteria: SyncRow)
    requires criteria.table.Some? && |criteria.table.value.primaryKeys| == |c.table.primaryKeys|
    requires KeysReadable(c.table.primaryKeys, criteria)
    requires forall k :: 0 <= k < |c.table.primaryKeys| ==> KeyCell(criteria, c.table.primaryKeys[k]).Some?
    requires forall i :: 0 <= i < Count(c) ==> KeysReadable(c.table.primaryKeys, c.rows[i])
    ensures GetRowsByPrimaryKeys(c, criteria) == Success(Filter(c.rows, HasEqualKey(c.table.primaryKeys, criteria)))
  {
    var keys := c.table.primaryKeys;
    forall i | 0 <= i < Count(c)
      ensures KeysMatch(keys, criteria, c.rows[i]) == Success(SameKey(keys, criteria, c.rows[i]))
    {
      KeysMatchIsCompositeKeyEquality(keys, criteria, c.rows[i]);
    }
    FilterSameTest(c.rows, MatchesCriteria(keys, criteria), HasEqualKey(keys, criteria));
  }

  // ---------------------------------------------------------------------------
  // Properties relating several operations
  // ---------------------------------------------------------------------------

  /** Inserting a row and removing it again at the same index restores the collection. */
  lemma InsertThenRemoveAtRestores(c: SyncRows, index: int, row: SyncRow)
    requires 0 <= index <= Count(c)
    ensures RemoveAt(Insert(c, index, row).value, index) == Success(c)
  {
    var v := Insert(c, index, row).value;
    assert v.rows[..index] + v.rows[index + 1..] == c.rows[..index] + c.rows[index..];
    assert c.rows[..index] + c.rows[index..] == c.rows;
  }

  /** A row appended by `Add` is found at the end, and removing it restores the collection. */
  lemma AddThenRemoveRestores(c: SyncRows, row: SyncRow, canConvert: ConverterOracle)
    requires Fits(c.table, row, canConvert)
    requires BindTo(row, c.table) !in c.rows
    ensures IndexOf(Add(c, row, canConvert).value, BindTo(row, c.table)) == Count(c)
    ensures Remove(Add(c, row, canConvert).value, BindTo(row, c.table)) == (c, true)
  {
    var v := Add(c, row, canConvert).value;
    assert v.rows == c.rows + [BindTo(row, c.table)];
    assert v.rows[..Count(c)] == c.rows;
    assert v.rows[Count(c) + 1..] == [];
    assert IndexOf(v, BindTo(row, c.table)) == Count(c);
    assert Remove(v, BindTo(row, c.table)).0.rows == c.rows;
  }

  /** Rebinding twice to the same table is rebinding once. */
  lemma EnsureRowsIdempotent(c: SyncRows, t: SyncTable)
    ensures EnsureRows(EnsureRows(c, t), t) == EnsureRows(c, t)
  {
  }
}

=== FILE: text.dfy ===
/** String helpers shared by the builders and the metadata mapping:
    invariant-culture lower-casing, ordinal substring search and
    separator joining. */
module Text {

  /** `char.ToLowerInvariant` restricted to ASCII letters. */
  function LowerChar(c: char): char {
    if 'A' <= c <= 'Z' then (c as int + 32) as char else c
  }

  /** `string.ToLowerInvariant`: lower-cases every character. */
  function Lower(s: string): (r: string)
    ensures |r| == |s|
  {
    seq(|s|, i requires 0 <= i < |s| => LowerChar(s[i]))
  }

  /** Two identifiers are the same name when their lower-case forms are equal,
      the comparison the builders use to avoid duplicate columns. */
  predicate SameName(a: string, b: string) {
    Lower(a) == Lower(b)
  }

  /** `t` occurs in `s` starting at position `i`. */
  predicate OccursAt(t: string, s: string, i: int) {
    0 <= i && i + |t| <= |s| && s[i..i + |t|] == t
  }

  /** `t` occurs in `s` at some position: the meaning of `string.Contains`. */
  ghost predicate Occurs(t: string, s: string) {
    exists i :: OccursAt(t, s, i)
  }

  /** Ordinal `string.Contains`, scanning `s` left to right. */
  function Contains(s: string, t: string): (r: bool)
    ensures r <==> Occurs(t, s)
    decreases |s|
  {
    if |t| > |s| then false
    else if s[..|t|] == t then assert OccursAt(t, s, 0); true
    else
      var rest := Contains(s[1..], t);
      assert Occurs(t, s[1..]) ==> Occurs(t, s) by {
        if Occurs(t, s[1..]) {
          var i :| OccursAt(t, s[1..], i);
          assert s[i + 1..i + 1 + |t|] == t;
          assert OccursAt(t, s, i + 1);
        }
      }
      assert Occurs(t, s) ==> Occurs(t, s[1..]) by {
        if Occurs(t, s) {
          var i :| OccursAt(t, s, i);
          assert i != 0;
          assert s[1..][i - 1..i - 1 + |t|] == t;
          assert OccursAt(t, s[1..], i - 1);
        }
      }
      rest
  }

  /** The elements of `xs` separated by `sep`, with no leading or trailing separator. */
  function Join(xs: seq<string>, sep: string): string
  {
    if |xs| == 0 then ""
    else if |xs| == 1 then xs[0]
    else Join(xs[..|xs| - 1], sep) + sep + xs[|xs| - 1]
  }

  /** Joining one more element appends the separator (unless it is the first) and the element. */
  lemma JoinSnoc(xs: seq<string>, i: nat, sep: string)
    requires i < |xs|
    ensures Join(xs[..i + 1], sep) == (if i == 0 then "" else Join(xs[..i], sep) + sep) + xs[i]
  {
    assert xs[..i + 1][..i] == xs[..i];
  }

  /** In `a + b + c`, `a` starts the text, `c` ends it, and whatever occurs in `b`
      occurs shifted by `|a|`. */
  lemma OccursInConcat(a: string, b: string, c: string, t: string, j: int)
    ensures OccursAt(a, a + b + c, 0)
    ensures OccursAt(c, a + b + c, |a + b + c| - |c|)
    ensures OccursAt(t, b, j) ==> OccursAt(t, a + b + c, |a| + j)
  {
    var s := a + b + c;
    assert s[..|a|] == a;
    assert s[|s| - |c|..] == c;
    if OccursAt(t, b, j) {
      assert s[|a| + j..|a| + j + |t|] == b[j..j + |t|];
    }
  }
}

=== FILE: tracking_table.dfy ===
/** The MySQL tracking-table text builders (`MySqlBuilderTrackingTable`):
    the `CREATE TABLE` statement of a table's tracking table, the statement
    that populates it from the base table, and the drop script.

    Statements are modelled as their column and clause lists rather than as
    byte-exact text. The type mapping (`MySqlDbMetadata`) and identifier
    quoting (`ObjectNameParser`) are uninterpreted functions passed in. */
module TrackingTable {
  import opened Wrappers
  import opened Text

  // ---------------------------------------------------------------------------
  // Inputs
  // ---------------------------------------------------------------------------

  /** A column of the table description, with what the type mapping reads from it. */
  datatype DmColumn = DmColumn(
    name: string,
    originalDbType: string,
    dbType: int,
    isUnsigned: bool,
    isUnicode: bool,
    maxLength: int,
    precision: int,
    scale: int)

  /** A relation in which this table is the parent: the parent-side columns it binds. */
  datatype Relation = Relation(parentColumns: seq<DmColumn>)

  /** The table description: all columns, the primary-key columns in key order,
      the child relations, the provider the schema came from, and whether column
      names are looked up case-sensitively. */
  datatype TableDescription = TableDescription(
    tableName: string,
    columns: seq<DmColumn>,
    primaryKey: seq<DmColumn>,
    childRelations: seq<Relation>,
    originalProvider: string,
    caseSensitive: bool)

  /** A filter clause, reduced to the column it filters on (`null` when the
      table needs a relation to reach the filter). */
  datatype FilterClause = FilterClause(columnName: Option<string>)

  /** The arguments the type mapping reads to render a column type. */
  datatype TypeQuery = TypeQuery(
    originalDbType: string,
    dbType: int,
    unsigned: bool,
    unicode: bool,
    maxLength: int,
    originalProvider: string)

  /** `MySqlDbMetadata`: the owner type name of a column, and its precision
      suffix given the column's precision and scale. */
  datatype TypeMapping = TypeMapping(
    ownerTypeString: TypeQuery -> string,
    ownerTypePrecision: (TypeQuery, int, int) -> string)

  /** `ObjectNameParser(name, left, right)`: its `FullQuotedString`,
      `FullUnquotedString` and `QuotedObjectName`, each given the name and the
      left and right delimiters. */
  datatype Quoting = Quoting(
    fullQuoted: (string, string, string) -> string,
    fullUnquoted: (string, string, string) -> string,
    quotedObjectName: (string, string, string) -> string)

  datatype Delimiters = Delimiters(left: string, right: string)

  const Backticks := Delimiters("`", "`")
  const Brackets := Delimiters("[", "]")

  /** Everything a builder instance holds: the table description, its filters
      (`None` is a `null` list), the quoted base and tracking table names, the
      collaborators, and the `MySqlObjectNames.TimestampValue` expression. */
  datatype Builder = Builder(
    table: TableDescription,
    filters: Option<seq<FilterClause>>,
    tableName: string,
    trackingName: string,
    mapping: TypeMapping,
    quoting: Quoting,
    timestampValue: string)

  datatype BuildError = ColumnNotFound(name: string)

  // ---------------------------------------------------------------------------
  // The tracked columns beyond the primary key
  // ---------------------------------------------------------------------------

  /** A column added after the tracking block, tagged with where it came from. */
  datatype ExtraColumn = RelationColumn(column: DmColumn) | FilterColumn(column: DmColumn)

  /** Some column of `added` has `name`, ignoring case. */
  predicate NameTaken(added: seq<DmColumn>, name: string) {
    exists i :: 0 <= i < |added| && SameName(added[i].name, name)
  }

  function ColumnsOf(extras: seq<ExtraColumn>): (r: seq<DmColumn>)
    ensures |r| == |extras|
  {
    seq(|extras|, i requires 0 <= i < |extras| => extras[i].column)
  }

  /** The parent columns of every child relation, relation by relation. */
  function RelationCandidates(relations: seq<Relation>): (r: seq<ExtraColumn>)
    ensures forall i :: 0 <= i < |r| ==> r[i].RelationColumn?
  {
    if |relations| == 0 then []
    else
      var p := relations[|relations| - 1].parentColumns;
      RelationCandidates(relations[..|relations| - 1]) + seq(|p|, i requires 0 <= i < |p| => RelationColumn(p[i]))
  }

  /** Whether a table column answers to `name` under the table's case rule. */
  predicate NameMatches(table: TableDescription, column: DmColumn, name: string) {
    if table.caseSensitive then column.name == name else SameName(column.name, name)
  }

  /** The column indexer `Columns[name]`: the first column answering to `name`. */
  function FindColumn(table: TableDescription, name: string): (r: Option<DmColumn>)
    ensures r.Some? ==> r.value in table.columns && NameMatches(table, r.value, name)
    ensures r.Some? ==> exists i :: 0 <= i < |table.columns| && table.columns[i] == r.value &&
                          forall j :: 0 <= j < i ==> !NameMatches(table, table.columns[j], name)
    ensures r.None? <==> forall i :: 0 <= i < |table.columns| ==> !NameMatches(table, table.columns[i], name)
  {
    FindColumnFrom(table, name, 0)
  }

  function FindColumnFrom(table: TableDescription, name: string, from: nat): (r: Option<DmColumn>)
    requires from <= |table.columns|
    ensures r.Some? ==> r.value in table.columns[from..] && NameMatches(table, r.value, name)
    ensures r.Some? ==> exists i :: from <= i < |table.columns| && table.columns[i] == r.value &&
                          forall j :: from <= j < i ==> !NameMatches(table, table.columns[j], name)
    ensures r.None? <==> forall i :: from <= i < |table.columns| ==> !NameMatches(table, table.columns[i], name)
    decreases |table.columns| - from
  {
    if from == |table.columns| then None
    else if NameMatches(table, table.columns[from], name) then Some(table.columns[from])
    else
      var r := FindColumnFrom(table, name, from + 1);
      assert r.Some? ==> exists i :: from <= i < |table.columns| && table.columns[i] == r.value &&
                                     forall j :: from <= j < i ==> !NameMatches(table, table.columns[j], name) by {
        if r.Some? {
          var i :| from + 1 <= i < |table.columns| && table.columns[i] == r.value &&
                   forall j :: from + 1 <= j < i ==> !NameMatches(table, table.columns[j], name);
          assert forall j :: from <= j < i ==> !NameMatches(table, table.columns[j], name);
        }
      }
      r
  }

  /** A filter that names a column (`!string.IsNullOrEmpty`). */
  predicate NamesColumn(f: FilterClause) {
    f.columnName.Some? && f.columnName.value != ""
  }

  /** A filter naming a column the table does not have. */
  predicate Unresolvable(table: TableDescription, f: FilterClause) {
    NamesColumn(f) && FindColumn(table, f.columnName.value).None?
  }

  /** The column names the filters give, in filter order; a filter without one is skipped. */
  function FilterNames(filters: seq<FilterClause>): (r: seq<string>)
    ensures |r| <= |filters|
    decreases |filters|
  {
    if |filters| == 0 then []
    else (if NamesColumn(filters[0]) then [filters[0].columnName.value] else []) + FilterNames(filters[1..])
  }

  /** The filter loop's column lookups, in order: filters without a column name are
      skipped, and the first filter naming an absent column raises. */
  function ResolveFilters(table: TableDescription, filters: seq<FilterClause>): (r: Result<seq<DmColumn>, BuildError>)
    ensures r.Failure? <==> exists i :: 0 <= i < |filters| && Unresolvable(table, filters[i])
    ensures r.Success? ==> ResolvesNames(table, FilterNames(filters), r.value)
    ensures r.Success? ==> forall j :: 0 <= j < |r.value| ==> r.value[j] in table.columns
    decreases |filters|
  {
    if |filters| == 0 then Success([])
    else
      UnresolvableCons(table, filters);
      if !NamesColumn(filters[0]) then ResolveFilters(table, filters[1..])
      else
        match FindColumn(table, filters[0].columnName.value)
        case None => Failure(ColumnNotFound(filters[0].columnName.value))
        case Some(column) =>
          var rest :- ResolveFilters(table, filters[1..]);
          ResolvesNamesCons(table, filters[0].columnName.value, column, FilterNames(filters[1..]), rest);
          Success([column] + rest)
  }

  /** Some filter is unresolvable exactly when the first one or one of the rest is. */
  lemma UnresolvableCons(table: TableDescription, filters: seq<FilterClause>)
    requires |filters| > 0
    ensures (exists i :: 0 <= i < |filters| && Unresolvable(table, filters[i])) <==>
            Unresolvable(table, filters[0]) || exists i :: 0 <= i < |filters[1..]| && Unresolvable(table, filters[1..][i])
  {
    assert forall i :: 1 <= i < |filters| ==> filters[i] == filters[1..][i - 1];
  }

  /** `columns` are, one for one and in order, what the column indexer finds for `names`. */
  predicate ResolvesNames(table: TableDescription, names: seq<string>, columns: seq<DmColumn>) {
    |columns| == |names| && forall k :: 0 <= k < |columns| ==> FindColumn(table, names[k]) == Some(columns[k])
  }

  /** What the indexer finds is a table column. */
  lemma ResolvedAreTableColumns(table: TableDescription, names: seq<string>, columns: seq<DmColumn>)
    requires ResolvesNames(table, names, columns)
    ensures forall j :: 0 <= j < |columns| ==> columns[j] in table.columns
  {
    forall j | 0 <= j < |columns|
      ensures columns[j] in table.columns
    {
      assert FindColumn(table, names[j]) == Some(columns[j]);
    }
  }

  /** Every filter that names a column contributes its name. */
  lemma {:induction false} FilterNamesHas(filters: seq<FilterClause>, i: int)
    requires 0 <= i < |filters| && NamesColumn(filters[i])
    ensures filters[i].columnName.value in FilterNames(filters)
    decreases |filters|
  {
    if i > 0 {
      assert filters[i] == filters[1..][i - 1];
      FilterNamesHas(filters[1..], i - 1);
    }
  }

  lemma ResolvesNamesCons(table: TableDescription, name: string, column: DmColumn, names: seq<string>, columns: seq<DmColumn>)
    requires FindColumn(table, name) == Some(column) && ResolvesNames(table, names, columns)
    ensures ResolvesNames(table, [name] + names, [column] + columns)
  {
    var ns := [name] + names;
    var cs := [column] + columns;
    forall k | 0 <= k < |cs|
      ensures FindColumn(table, ns[k]) == Some(cs[k])
    {
      if k > 0 {
        assert ns[k] == names[k - 1] && cs[k] == columns[k - 1];
      }
    }
  }

  /** The duplicate check of both builders: walks the candidates in order and keeps
      one only when no column added so far (starting with `added`) has its name,
      ignoring case. */
  function KeepNew(added: seq<DmColumn>, candidates: seq<ExtraColumn>): (r: seq<ExtraColumn>)
    ensures |r| <= |candidates|
    decreases |candidates|
  {
    if |candidates| == 0 then []
    else if NameTaken(added, candidates[0].column.name) then KeepNew(added, candidates[1..])
    else [candidates[0]] + KeepNew(added + [candidates[0].column], candidates[1..])
  }

  /** No column of `r` has a name taken by `added`, ignoring case. */
  predicate AvoidsNames(added: seq<DmColumn>, r: seq<ExtraColumn>) {
    forall i :: 0 <= i < |r| ==> !NameTaken(added, r[i].column.name)
  }

  /** No two columns of `r` share a name, ignoring case. */
  predicate DistinctNames(r: seq<ExtraColumn>) {
    forall i, j :: 0 <= i < j < |r| ==> !SameName(r[i].column.name, r[j].column.name)
  }

  /** A name taken by a prefix stays taken. */
  lemma NameTakenGrows(added: seq<DmColumn>, more: seq<DmColumn>, name: string)
    requires NameTaken(added, name)
    ensures NameTaken(added + more, name)
  {
    var j :| 0 <= j < |added| && SameName(added[j].name, name);
    assert (added + more)[j] == added[j];
  }

  /** Avoiding the names of a longer list avoids those of its prefix. */
  lemma AvoidsNamesShrinks(added: seq<DmColumn>, x: DmColumn, r: seq<ExtraColumn>)
    requires AvoidsNames(added + [x], r)
    ensures AvoidsNames(added, r)
  {
    forall i | 0 <= i < |r|
      ensures !NameTaken(added, r[i].column.name)
    {
      if NameTaken(added, r[i].column.name) {
        NameTakenGrows(added, [x], r[i].column.name);
      }
    }
  }

  /** Every kept column is one of the candidates, and none is kept twice over. */
  lemma {:induction false} KeepNewKeepsCandidates(added: seq<DmColumn>, candidates: seq<ExtraColumn>)
    ensures multiset(KeepNew(added, candidates)) <= multiset(candidates)
    decreases |candidates|
  {
    if |candidates| > 0 {
      var c := candidates[0];
      var rest := candidates[1..];
      assert candidates == [c] + rest;
      if NameTaken(added, c.column.name) {
        KeepNewKeepsCandidates(added, rest);
      } else {
        KeepNewKeepsCandidates(added + [c.column], rest);
      }
    }
  }

  /** No kept column has a name already taken by `added`, ignoring case. */
  lemma {:induction false} KeepNewAvoidsAdded(added: seq<DmColumn>, candidates: seq<ExtraColumn>)
    ensures AvoidsNames(added, KeepNew(added, candidates))
    decreases |candidates|
  {
    if |candidates| > 0 {
      var c := candidates[0];
      var rest := candidates[1..];
      if NameTaken(added, c.column.name) {
        KeepNewAvoidsAdded(added, rest);
      } else {
        var tail := KeepNew(added + [c.column], rest);
        KeepNewAvoidsAdded(added + [c.column], rest);
        AvoidsNamesShrinks(added, c.column, tail);
        AvoidsNamesCons(added, c, tail);
      }
    }
  }

  lemma AvoidsNamesCons(added: seq<DmColumn>, c: ExtraColumn, tail: seq<ExtraColumn>)
    requires !NameTaken(added, c.column.name) && AvoidsNames(added, tail)
    ensures AvoidsNames(added, [c] + tail)
  {
    var r := [c] + tail;
    forall i | 0 <= i < |r|
      ensures !NameTaken(added, r[i].column.name)
    {
      if i > 0 {
        assert r[i] == tail[i - 1];
      }
    }
  }

  /** No two kept columns share a name, ignoring case. */
  lemma {:induction false} KeepNewDistinct(added: seq<DmColumn>, candidates: seq<ExtraColumn>)
    ensures DistinctNames(KeepNew(added, candidates))
    decreases |candidates|
  {
    if |candidates| > 0 {
      var c := candidates[0];
      var rest := candidates[1..];
      if NameTaken(added, c.column.name) {
        KeepNewDistinct(added, rest);
      } else {
        var grown := added + [c.column];
        var tail := KeepNew(grown, rest);
        KeepNewDistinct(grown, rest);
        KeepNewAvoidsAdded(grown, rest);
        DistinctNamesCons(added, c, tail);
      }
    }
  }

  lemma DistinctNamesCons(added: seq<DmColumn>, c: ExtraColumn, tail: seq<ExtraColumn>)
    requires DistinctNames(tail) && AvoidsNames(added + [c.column], tail)
    ensures DistinctNames([c] + tail)
  {
    var grown := added + [c.column];
    var r := [c] + tail;
    forall i, j | 0 <= i < j < |r|
      ensures !SameName(r[i].column.name, r[j].column.name)
    {
      assert r[j] == tail[j - 1];
      if i == 0 {
        assert !NameTaken(grown, tail[j - 1].column.name);
        assert grown[|added|] == c.column;
      } else {
        assert r[i] == tail[i - 1];
      }
    }
  }

  /** Nothing is lost: every candidate's name is taken by `added` or by a kept column. */
  lemma {:induction false} KeepNewCovers(added: seq<DmColumn>, candidates: seq<ExtraColumn>)
    ensures CoversNames(added + ColumnsOf(KeepNew(added, candidates)), candidates)
    decreases |candidates|
  {
    if |candidates| > 0 {
      var c := candidates[0];
      var rest := candidates[1..];
      var r := KeepNew(added, candidates);
      assert forall i :: 1 <= i < |candidates| ==> candidates[i] == rest[i - 1];
      if NameTaken(added, c.column.name) {
        KeepNewCovers(added, rest);
        NameTakenGrows(added, ColumnsOf(r), c.column.name);
      } else {
        var grown := added + [c.column];
        var tail := KeepNew(grown, rest);
        KeepNewCovers(grown, rest);
        assert ColumnsOf(r) == [c.column] + ColumnsOf(tail);
        assert added + ColumnsOf(r) == grown + ColumnsOf(tail);
        assert (added + ColumnsOf(r))[|added|] == c.column;
        assert SameName(c.column.name, c.column.name);
      }
    }
  }

  /** Every candidate's name is taken by `added`, ignoring case. */
  predicate CoversNames(added: seq<DmColumn>, candidates: seq<ExtraColumn>) {
    forall i :: 0 <= i < |candidates| ==> NameTaken(added, candidates[i].column.name)
  }

  /** The reference de-duplication: candidate `i` is kept exactly when no column of
      `added` and no earlier candidate has its name, ignoring case; the kept
      candidates stay in their order. */
  function FirstOccurrences(added: seq<DmColumn>, candidates: seq<ExtraColumn>): (r: seq<ExtraColumn>)
    ensures |r| <= |candidates|
    decreases |candidates|
  {
    if |candidates| == 0 then []
    else
      var init := candidates[..|candidates| - 1];
      var last := candidates[|candidates| - 1];
      FirstOccurrences(added, init) + (if NameTaken(added + ColumnsOf(init), last.column.name) then [] else [last])
  }

  /** The walk keeps exactly the first occurrence of each name not already added. */
  lemma {:induction false} KeepNewIsFirstOccurrences(added: seq<DmColumn>, candidates: seq<ExtraColumn>)
    ensures KeepNew(added, candidates) == FirstOccurrences(added, candidates)
    decreases |candidates|
  {
    if |candidates| > 0 {
      var init := candidates[..|candidates| - 1];
      var last := candidates[|candidates| - 1];
      assert candidates == init + [last];
      KeepNewIsFirstOccurrences(added, init);
      KeepNewSnoc(added, init, last);
      TakenByKeptOrCandidates(added, init, last.column.name);
    }
  }

  /** Offering one more candidate keeps it exactly when the names added so far
      (`added` and the columns kept from `c`) do not include its name. */
  lemma {:induction false} KeepNewSnoc(added: seq<DmColumn>, c: seq<ExtraColumn>, x: ExtraColumn)
    ensures KeepNew(added, c + [x]) ==
            KeepNew(added, c) + (if NameTaken(added + ColumnsOf(KeepNew(added, c)), x.column.name) then [] else [x])
    decreases |c|
  {
    if |c| == 0 {
      assert [x][1..] == [];
      assert added + ColumnsOf([]) == added;
    } else {
      var c0 := c[0];
      var rest := c[1..];
      assert (c + [x])[0] == c0 && (c + [x])[1..] == rest + [x];
      if NameTaken(added, c0.column.name) {
        KeepNewSnoc(added, rest, x);
      } else {
        var grown := added + [c0.column];
        KeepNewSnoc(grown, rest, x);
        var tail := KeepNew(grown, rest);
        assert ColumnsOf([c0] + tail) == [c0.column] + ColumnsOf(tail);
        assert added + ColumnsOf([c0] + tail) == grown + ColumnsOf(tail);
      }
    }
  }

  /** A name is taken by `added` plus the kept columns exactly when it is taken by
      `added` plus all the candidates, ignoring case. */
  lemma TakenByKeptOrCandidates(added: seq<DmColumn>, c: seq<ExtraColumn>, name: string)
    ensures NameTaken(added + ColumnsOf(KeepNew(added, c)), name) <==> NameTaken(added + ColumnsOf(c), name)
  {
    var kept := KeepNew(added, c);
    var viaKept := added + ColumnsOf(kept);
    var viaAll := added + ColumnsOf(c);
    if NameTaken(viaKept, name) {
      var j :| 0 <= j < |viaKept| && SameName(viaKept[j].name, name);
      if j < |added| {
        assert viaAll[j] == added[j];
      } else {
        KeepNewKeepsCandidates(added, c);
        var e := kept[j - |added|];
        assert e in multiset(kept);
        var m :| 0 <= m < |c| && c[m] == e;
        assert viaAll[|added| + m] == e.column;
      }
    }
    if NameTaken(viaAll, name) {
      var j :| 0 <= j < |viaAll| && SameName(viaAll[j].name, name);
      if j < |added| {
        assert viaKept[j] == added[j];
      } else {
        KeepNewCovers(added, c);
        assert NameTaken(viaKept, c[j - |added|].column.name);
        var m :| 0 <= m < |viaKept| && SameName(viaKept[m].name, c[j - |added|].column.name);
        assert SameName(viaKept[m].name, name);
      }
    }
  }

  /** Some filter of the builder names a column the table lacks. */
  predicate FilterUnresolvable(b: Builder) {
    b.filters.Some? && exists i :: 0 <= i < |b.filters.value| && Unresolvable(b.table, b.filters.value[i])
  }

  /** The table columns the builder's filters name, in filter order. */
  function FilterCandidates(columns: seq<DmColumn>): (r: seq<ExtraColumn>)
    ensures |r| == |columns|
  {
    seq(|columns|, i requires 0 <= i < |columns| => FilterColumn(columns[i]))
  }

  /** Every filter that names a column has its name taken by `added`, ignoring case. */
  predicate FilterNamesCovered(added: seq<DmColumn>, filters: seq<FilterClause>) {
    forall i :: 0 <= i < |filters| && NamesColumn(filters[i]) ==> NameTaken(added, filters[i].columnName.value)
  }

  /** The filter loop's lookups when the builder has filters, and none otherwise. */
  function FilterColumns(b: Builder): Result<seq<DmColumn>, BuildError> {
    if b.filters.Some? then ResolveFilters(b.table, b.filters.value) else Success([])
  }

  /** The columns added after the tracking block: the relations' parent columns,
      then the filter columns, with every name already present, ignoring case,
      skipped. Raises when a filter names a column the table lacks. */
  function TrackedExtras(b: Builder): (r: Result<seq<ExtraColumn>, BuildError>)
    ensures r.Failure? <==> FilterUnresolvable(b)
    ensures r.Success? ==> AvoidsNames(b.table.primaryKey, r.value) && DistinctNames(r.value)
    ensures r.Success? ==> forall i :: 0 <= i < |r.value| && r.value[i].FilterColumn? ==> r.value[i].column in b.table.columns
    ensures r.Success? ==> CoversNames(b.table.primaryKey + ColumnsOf(r.value), RelationCandidates(b.table.childRelations))
    ensures r.Success? && b.filters.Some? ==> FilterNamesCovered(b.table.primaryKey + ColumnsOf(r.value), b.filters.value)
    ensures r.Success? ==>
              && FilterColumns(b).Success?
              && r.value == FirstOccurrences(b.table.primaryKey,
                                             RelationCandidates(b.table.childRelations) + FilterCandidates(FilterColumns(b).value))
  {
    var filterColumns :- FilterColumns(b);
    assert forall j :: 0 <= j < |filterColumns| ==> filterColumns[j] in b.table.columns by {
      if b.filters.Some? {
        ResolvedAreTableColumns(b.table, FilterNames(b.filters.value), filterColumns);
      }
    }
    var relationColumns := RelationCandidates(b.table.childRelations);
    var candidates := relationColumns + FilterCandidates(filterColumns);
    var pk := b.table.primaryKey;
    var r := KeepNew(pk, candidates);
    KeepNewKeepsCandidates(pk, candidates);
    KeepNewAvoidsAdded(pk, candidates);
    KeepNewDistinct(pk, candidates);
    KeepNewCovers(pk, candidates);
    KeepNewIsFirstOccurrences(pk, candidates);
    CoversSplit(pk + ColumnsOf(r), relationColumns, filterColumns);
    KeptFiltersAreColumns(b.table, relationColumns, filterColumns, r);
    assert b.filters.Some? ==> FilterNamesCovered(pk + ColumnsOf(r), b.filters.value) by {
      if b.filters.Some? {
        ResolvedFilterNames(b.table, b.filters.value, filterColumns);
        CoveredFilterNames(pk + ColumnsOf(r), b.table, b.filters.value, filterColumns);
      }
    }
    Success(r)
  }

  /** Covering a concatenation covers both parts. */
  lemma CoversSplit(added: seq<DmColumn>, relationColumns: seq<ExtraColumn>, filterColumns: seq<DmColumn>)
    requires CoversNames(added, relationColumns + FilterCandidates(filterColumns))
    ensures CoversNames(added, relationColumns)
    ensures forall j :: 0 <= j < |filterColumns| ==> NameTaken(added, filterColumns[j].name)
  {
    var candidates := relationColumns + FilterCandidates(filterColumns);
    forall i | 0 <= i < |relationColumns|
      ensures NameTaken(added, relationColumns[i].column.name)
    {
      assert candidates[i] == relationColumns[i];
    }
    forall j | 0 <= j < |filterColumns|
      ensures NameTaken(added, filterColumns[j].name)
    {
      assert candidates[|relationColumns| + j] == FilterColumn(filterColumns[j]);
    }
  }

  /** The filter-sourced columns kept from the candidates are table columns. */
  lemma KeptFiltersAreColumns(table: TableDescription, relationColumns: seq<ExtraColumn>,
                              filterColumns: seq<DmColumn>, r: seq<ExtraColumn>)
    requires forall i :: 0 <= i < |relationColumns| ==> relationColumns[i].RelationColumn?
    requires forall i :: 0 <= i < |filterColumns| ==> filterColumns[i] in table.columns
    requires multiset(r) <= multiset(relationColumns + FilterCandidates(filterColumns))
    ensures forall i :: 0 <= i < |r| && r[i].FilterColumn? ==> r[i].column in table.columns
  {
    var candidates := relationColumns + FilterCandidates(filterColumns);
    forall i | 0 <= i < |r| && r[i].FilterColumn?
      ensures r[i].column in table.columns
    {
      assert r[i] in multiset(r);
      assert r[i] in multiset(candidates);
      var j :| 0 <= j < |candidates| && candidates[j] == r[i];
      assert j >= |relationColumns|;
      assert candidates[j] == FilterCandidates(filterColumns)[j - |relationColumns|];
    }
  }

  /** Each filter that names a column matches, under the table's case rule, one of
      the resolved columns. */
  lemma ResolvedFilterNames(table: TableDescription, filters: seq<FilterClause>, columns: seq<DmColumn>)
    requires ResolveFilters(table, filters) == Success(columns)
    ensures forall i :: 0 <= i < |filters| && NamesColumn(filters[i]) ==>
              exists j :: 0 <= j < |columns| && NameMatches(table, columns[j], filters[i].columnName.value)
  {
    forall i | 0 <= i < |filters| && NamesColumn(filters[i])
      ensures exists j :: 0 <= j < |columns| && NameMatches(table, columns[j], filters[i].columnName.value)
    {
      var names := FilterNames(filters);
      FilterNamesHas(filters, i);
      var j :| 0 <= j < |names| && names[j] == filters[i].columnName.value;
      assert FindColumn(table, names[j]) == Some(columns[j]);
    }
  }

  /** A filter name matching a covered column is itself covered, ignoring case. */
  lemma CoveredFilterNames(added: seq<DmColumn>, table: TableDescription, filters: seq<FilterClause>, columns: seq<DmColumn>)
    requires forall j :: 0 <= j < |columns| ==> NameTaken(added, columns[j].name)
    requires forall i :: 0 <= i < |filters| && NamesColumn(filters[i]) ==>
               exists j :: 0 <= j < |columns| && NameMatches(table, columns[j], filters[i].columnName.value)
    ensures FilterNamesCovered(added, filters)
  {
    forall i | 0 <= i < |filters| && NamesColumn(filters[i])
      ensures NameTaken(added, filters[i].columnName.value)
    {
      var name := filters[i].columnName.value;
      var j :| 0 <= j < |columns| && NameMatches(table, columns[j], name);
      assert SameName(columns[j].name, name);
      var k :| 0 <= k < |added| && SameName(added[k].name, columns[j].name);
      assert SameName(added[k].name, name);
    }
  }

  // ---------------------------------------------------------------------------
  // CREATE TABLE
  // ---------------------------------------------------------------------------

  /** One column line of the `CREATE TABLE` statement. */
  datatype ColumnDef = ColumnDef(name: string, sqlType: string, nullability: string) {
    /** The line as appended: `{name} {type} {nullability}, `. */
    function Line(): string {
      name + " " + sqlType + " " + nullability + ", "
    }
  }

  /** The fixed block of tracking columns, in declaration order. */
  const TrackingColumnDefs: seq<ColumnDef> := [
    ColumnDef("`create_scope_id`", "VARCHAR(36)", "NULL"),
    ColumnDef("`update_scope_id`", "VARCHAR(36)", "NULL"),
    ColumnDef("`create_timestamp`", "BIGINT", "NULL"),
    ColumnDef("`update_timestamp`", "BIGINT", "NULL"),
    ColumnDef("`timestamp`", "BIGINT", "NULL"),
    ColumnDef("`sync_row_is_tombstone`", "BIT", "NOT NULL default 0 "),
    ColumnDef("`last_change_datetime`", "DATETIME", "NULL")
  ]

  /** The rendered type of a column: the unquoted owner type name, a space, and the precision suffix. */
  function ColumnTypeText(b: Builder, column: DmColumn, unsigned: bool, unicode: bool, d: Delimiters): string {
    var q := TypeQuery(column.originalDbType, column.dbType, unsigned, unicode, column.maxLength, b.table.originalProvider);
    b.quoting.fullUnquoted(b.mapping.ownerTypeString(q), d.left, d.right) + " "
      + b.mapping.ownerTypePrecision(q, column.precision, column.scale)
  }

  /** A key column line: back-tick quoted, typed as neither unsigned nor unicode, `NOT NULL`. */
  function KeyColumnDef(b: Builder, column: DmColumn): ColumnDef {
    ColumnDef(b.quoting.fullQuoted(column.name, "`", "`"), ColumnTypeText(b, column, false, false, Backticks), "NOT NULL")
  }

  /** A relation or filter column line, `NULL`: relation columns are back-tick quoted,
      filter columns use `filterDelims` for the name and the type alike. */
  function ExtraColumnDef(b: Builder, e: ExtraColumn, filterDelims: Delimiters): ColumnDef {
    var d := if e.FilterColumn? then filterDelims else Backticks;
    ColumnDef(b.quoting.fullQuoted(e.column.name, d.left, d.right),
              ColumnTypeText(b, e.column, e.column.isUnsigned, e.column.isUnicode, d), "NULL")
  }

  /** The `CREATE TABLE` statement: the tracking table, its column lines and the
      quoted names listed by its `PRIMARY KEY` clause. */
  datatype CreateTableStatement = CreateTableStatement(trackingName: string, columns: seq<ColumnDef>, primaryKeyNames: seq<string>)

  const NewLine := "\n"

  /** The `PRIMARY KEY` clause that closes the statement. */
  function PrimaryKeyClause(names: seq<string>): string {
    " PRIMARY KEY (" + Join(names, ", ") + "))"
  }

  function ColumnLines(columns: seq<ColumnDef>): string {
    if |columns| == 0 then "" else ColumnLines(columns[..|columns| - 1]) + columns[|columns| - 1].Line() + NewLine
  }

  /** The first line of the statement: `CREATE TABLE {tracking name} (`. */
  function CreateHeader(trackingName: string): string {
    "CREATE TABLE " + trackingName + " (" + NewLine
  }

  /** The statement text: the header line, the column lines, the `PRIMARY KEY` clause. */
  function CreateTableText(s: CreateTableStatement): string {
    CreateHeader(s.trackingName) + ColumnLines(s.columns) + PrimaryKeyClause(s.primaryKeyNames)
  }

  /** The statement text opens with the header line and closes with the key clause. */
  lemma CreateTableTextEnds(s: CreateTableStatement)
    ensures OccursAt(CreateHeader(s.trackingName), CreateTableText(s), 0)
    ensures var text := CreateTableText(s);
            OccursAt(PrimaryKeyClause(s.primaryKeyNames), text, |text| - |PrimaryKeyClause(s.primaryKeyNames)|)
  {
    OccursInConcat(CreateHeader(s.trackingName), ColumnLines(s.columns), PrimaryKeyClause(s.primaryKeyNames), "", 0);
  }

  /** Column `i`'s line sits in the statement text right after the header line and
      the lines of the columns before it: the columns appear in column order. */
  lemma CreateTableLineAt(s: CreateTableStatement, i: nat)
    requires i < |s.columns|
    ensures OccursAt(s.columns[i].Line() + NewLine, CreateTableText(s),
                     |CreateHeader(s.trackingName)| + |ColumnLines(s.columns[..i])|)
  {
    var line := s.columns[i].Line() + NewLine;
    var at := |ColumnLines(s.columns[..i])|;
    ColumnLineAt(s.columns, i);
    OccursInConcat(CreateHeader(s.trackingName), ColumnLines(s.columns), PrimaryKeyClause(s.primaryKeyNames), line, at);
  }

  /** Line `i` sits in the column lines right after the lines of the columns before it. */
  lemma ColumnLineAt(columns: seq<ColumnDef>, i: nat)
    requires i < |columns|
    ensures OccursAt(columns[i].Line() + NewLine, ColumnLines(columns), |ColumnLines(columns[..i])|)
  {
    assert columns[..i + 1][..i] == columns[..i];
    ColumnLinesPrefix(columns, i + 1);
  }

  /** The lines of a prefix of the columns begin the lines of all of them. */
  lemma {:induction false} ColumnLinesPrefix(columns: seq<ColumnDef>, k: nat)
    requires k <= |columns|
    ensures |ColumnLines(columns[..k])| <= |ColumnLines(columns)|
    ensures ColumnLines(columns)[..|ColumnLines(columns[..k])|] == ColumnLines(columns[..k])
    decreases |columns|
  {
    if k < |columns| {
      var init := columns[..|columns| - 1];
      assert init[..k] == columns[..k];
      ColumnLinesPrefix(init, k);
    } else {
      assert columns[..k] == columns;
    }
  }

  /** `CreateTableCommandText` with the filter columns quoted by `filterDelims`:
      the key columns, the tracking block, then the de-duplicated relation and
      filter columns; the key names again in the `PRIMARY KEY` clause. */
  function CreateTableWith(b: Builder, filterDelims: Delimiters): (r: Result<CreateTableStatement, BuildError>)
    ensures r.Failure? <==> TrackedExtras(b).Failure?
    ensures r.Success? ==>
              var pk := b.table.primaryKey;
              var columns := r.value.columns;
              && r.value.trackingName == b.trackingName
              && |columns| == |pk| + |TrackingColumnDefs| + |TrackedExtras(b).value|
              && (forall i :: 0 <= i < |pk| ==>
                    columns[i] == KeyColumnDef(b, pk[i]) && columns[i].nullability == "NOT NULL")
              && columns[|pk|..|pk| + |TrackingColumnDefs|] == TrackingColumnDefs
              && (forall i :: |pk| + |TrackingColumnDefs| <= i < |columns| ==> columns[i].nullability == "NULL")
              && (forall k :: 0 <= k < |TrackedExtras(b).value| ==>
                    columns[|pk| + |TrackingColumnDefs| + k] == ExtraColumnDef(b, TrackedExtras(b).value[k], filterDelims))
              && |r.value.primaryKeyNames| == |pk|
              && (forall i :: 0 <= i < |pk| ==> r.value.primaryKeyNames[i] == b.quoting.quotedObjectName(pk[i].name, "`", "`"))
  {
    var extras :- TrackedExtras(b);
    var pk := b.table.primaryKey;
    var keyDefs := seq(|pk|, i requires 0 <= i < |pk| => KeyColumnDef(b, pk[i]));
    var extraDefs := seq(|extras|, i requires 0 <= i < |extras| => ExtraColumnDef(b, extras[i], filterDelims));
    var columns := keyDefs + TrackingColumnDefs + extraDefs;
    assert columns[|pk|..|pk| + |TrackingColumnDefs|] == TrackingColumnDefs;
    Success(CreateTableStatement(
      b.trackingName,
      columns,
      seq(|pk|, i requires 0 <= i < |pk| => b.quoting.quotedObjectName(pk[i].name, "`", "`"))))
  }

  /** `CreateTableCommandText` as written: relation columns are quoted with back-ticks,
      but filter columns with `[` and `]`. */
  function CreateTableCommandText(b: Builder): (r: Result<CreateTableStatement, BuildError>)
    ensures r.Failure? <==> FilterUnresolvable(b)
    ensures r.Success? ==>
              var extras := TrackedExtras(b).value;
              var base := |b.table.primaryKey| + |TrackingColumnDefs|;
              && |r.value.columns| == base + |extras|
              && forall k :: 0 <= k < |extras| ==>
                   var d := if extras[k].FilterColumn? then Brackets else Backticks;
                   && r.value.columns[base + k].name ==
                        (if extras[k].FilterColumn? then b.quoting.fullQuoted(extras[k].column.name, "[", "]")
                         else b.quoting.fullQuoted(extras[k].column.name, "`", "`"))
                   && r.value.columns[base + k].sqlType ==
                        ColumnTypeText(b, extras[k].column, extras[k].column.isUnsigned, extras[k].column.isUnicode, d)
  {
    CreateTableWith(b, Brackets)
  }

  /** `CreateTableCommandText` with every column name quoted with back-ticks, as the
      populate statement and the rest of the MySQL builders quote them. */
  function CreateTableCommandTextCorrected(b: Builder): (r: Result<CreateTableStatement, BuildError>)
    ensures r.Failure? <==> FilterUnresolvable(b)
    ensures r.Success? ==>
              var extras := TrackedExtras(b).value;
              var base := |b.table.primaryKey| + |TrackingColumnDefs|;
              && |r.value.columns| == base + |extras|
              && forall k :: 0 <= k < |extras| ==>
                   r.value.columns[base + k].name == b.quoting.fullQuoted(extras[k].column.name, "`", "`")
  {
    CreateTableWith(b, Backticks)
  }

  /** The tracking block has seven columns in fixed order, and the tombstone flag
      is the only one that is `NOT NULL` (with default 0). */
  lemma TrackingBlockShape()
    ensures |TrackingColumnDefs| == 7
    ensures forall i :: 0 <= i < 7 ==> (TrackingColumnDefs[i].nullability == "NULL" <==> i != 5)
    ensures TrackingColumnDefs[5].name == "`sync_row_is_tombstone`"
  {
  }

  /** The `PRIMARY KEY` clause as the source's loop builds it: each name, followed by
      `", "` except after the last, then `"))"`. */
  method BuildPrimaryKeyClause(names: seq<string>) returns (clause: string)
    ensures clause == PrimaryKeyClause(names)
  {
    clause := " PRIMARY KEY (";
    var i := 0;
    while i < |names|
      invariant 0 <= i <= |names|
      invariant i < |names| ==> clause == " PRIMARY KEY (" + Join(names[..i], ", ") + (if i == 0 then "" else ", ")
      invariant i == |names| ==> clause == " PRIMARY KEY (" + Join(names[..i], ", ")
    {
      JoinSnoc(names, i, ", ");
      clause := clause + names[i];
      if i < |names| - 1 {
        clause := clause + ", ";
      }
      i := i + 1;
    }
    assert names[..|names|] == names;
    clause := clause + "))";
  }

  /** The statement text ends with the clause listing every key column, and so with `"))"`. */
  lemma CreateTableTextEndsWithKeyClause(b: Builder, filterDelims: Delimiters)
    requires CreateTableWith(b, filterDelims).Success?
    ensures var s := CreateTableWith(b, filterDelims).value;
            var text := CreateTableText(s);
            var clause := PrimaryKeyClause(s.primaryKeyNames);
            && |text| >= |clause| >= 2
            && text[|text| - |clause|..] == clause
            && text[|text| - 2..] == "))"
  {
    KeyClauseEndsText(CreateTableWith(b, filterDelims).value);
  }

  /** Any statement's text ends with its key clause, and so with `"))"`. */
  lemma KeyClauseEndsText(s: CreateTableStatement)
    ensures var text := CreateTableText(s);
            var clause := PrimaryKeyClause(s.primaryKeyNames);
            && |text| >= |clause| >= 2
            && text[|text| - |clause|..] == clause
            && text[|text| - 2..] == "))"
  {
  }

  // ---------------------------------------------------------------------------
  // Populating from the base table
  // ---------------------------------------------------------------------------

  /** The populate statement: the insert columns of the tracking table, the select
      expressions over the base table (aliased `base`), and the `ON` and `WHERE`
      clauses of the left outer join with the tracking table (aliased `side`). */
  datatype PopulateStatement = PopulateStatement(
    trackingName: string,
    tableName: string,
    insertColumns: seq<string>,
    selectValues: seq<string>,
    onClause: string,
    whereClause: string)

  const BaseAlias := "`base`"
  const SideAlias := "`side`"

  /** The tracking columns the populate statement fills (all but `last_change_datetime`). */
  const PopulateTrackingColumns: seq<string> := [
    "`create_scope_id`", "`update_scope_id`", "`create_timestamp`",
    "`update_timestamp`", "`timestamp`", "`sync_row_is_tombstone`"
  ]

  /** The values given to those columns, in the same order. */
  function PopulateTrackingValues(timestampValue: string): (r: seq<string>)
    ensures |r| == |PopulateTrackingColumns|
  {
    ["NULL", "NULL", timestampValue, "0", timestampValue, "0"]
  }

  function Qualified(alias: string, names: seq<string>): (r: seq<string>)
    ensures |r| == |names|
  {
    seq(|names|, i requires 0 <= i < |names| => alias + "." + names[i])
  }

  function JoinEquality(name: string): string {
    BaseAlias + "." + name + " = " + SideAlias + "." + name
  }

  function SideIsNull(name: string): string {
    SideAlias + "." + name + " IS NULL"
  }

  /** The `ON` clause: `base.k = side.k` for each quoted key name, joined by `" AND "`. */
  function OnClause(keys: seq<string>): string {
    "ON " + Join(seq(|keys|, i requires 0 <= i < |keys| => JoinEquality(keys[i])), " AND ")
  }

  /** The `WHERE` clause: `side.k IS NULL` for each quoted key name, joined by `" AND "`. */
  function WhereClause(keys: seq<string>): string {
    "WHERE " + Join(seq(|keys|, i requires 0 <= i < |keys| => SideIsNull(keys[i])), " AND ")
  }

  /** `s` populates the tracking table of `b` with the extra columns `extras`: the insert
      and select lists run side by side over the key columns, the six tracking columns
      (with their fixed values) and the extras, every other value being the column
      read from the base table; the join matches the base and tracking rows on every
      key column, and only base rows without a tracking row are inserted. */
  predicate PopulatesWith(b: Builder, extras: seq<ExtraColumn>, s: PopulateStatement) {
    FillsColumns(b, extras, s) && JoinsOnKeys(b, s)
  }

  /** The insert and select lists of `PopulatesWith`. */
  predicate FillsColumns(b: Builder, extras: seq<ExtraColumn>, s: PopulateStatement) {
    var pk := b.table.primaryKey;
    var n := |pk| + |PopulateTrackingColumns|;
    && s.trackingName == b.trackingName && s.tableName == b.tableName
    && |s.insertColumns| == |s.selectValues| == n + |extras|
    && (forall i :: 0 <= i < |pk| ==> s.insertColumns[i] == b.quoting.fullQuoted(pk[i].name, "`", "`"))
    && s.insertColumns[|pk|..n] == PopulateTrackingColumns
    && s.selectValues[|pk|..n] == PopulateTrackingValues(b.timestampValue)
    && (forall k :: 0 <= k < |extras| ==> s.insertColumns[n + k] == b.quoting.fullQuoted(extras[k].column.name, "`", "`"))
    && (forall i :: 0 <= i < |s.insertColumns| && !(|pk| <= i < n) ==> s.selectValues[i] == BaseAlias + "." + s.insertColumns[i])
  }

  /** The join clauses of `PopulatesWith`: built over the inserted key columns. */
  predicate JoinsOnKeys(b: Builder, s: PopulateStatement) {
    var k := |b.table.primaryKey|;
    && k <= |s.insertColumns|
    && s.onClause == OnClause(s.insertColumns[..k])
    && s.whereClause == WhereClause(s.insertColumns[..k])
  }

  /** The populate statement for given extra columns. */
  function PopulateWith(b: Builder, extras: seq<ExtraColumn>): (s: PopulateStatement)
    ensures PopulatesWith(b, extras, s)
  {
    var pk := b.table.primaryKey;
    var keyNames := seq(|pk|, i requires 0 <= i < |pk| => b.quoting.fullQuoted(pk[i].name, "`", "`"));
    var extraNames := seq(|extras|, i requires 0 <= i < |extras| => b.quoting.fullQuoted(extras[i].column.name, "`", "`"));
    var insertColumns := keyNames + PopulateTrackingColumns + extraNames;
    var selectValues := Qualified(BaseAlias, keyNames) + PopulateTrackingValues(b.timestampValue) + Qualified(BaseAlias, extraNames);
    var n := |pk| + |PopulateTrackingColumns|;
    assert insertColumns[|pk|..n] == PopulateTrackingColumns;
    assert selectValues[|pk|..n] == PopulateTrackingValues(b.timestampValue);
    assert insertColumns[..|pk|] == keyNames;
    PopulateStatement(b.trackingName, b.tableName, insertColumns, selectValues, OnClause(keyNames), WhereClause(keyNames))
  }

  /** `CreatePopulateFromBaseTableCommandText`: the insert-column and select-expression
      lists are built side by side from the key columns, the six tracking columns and
      the de-duplicated relation and filter columns (all back-tick quoted). */
  function PopulateFromBaseTable(b: Builder): (r: Result<PopulateStatement, BuildError>)
    ensures r.Failure? <==> FilterUnresolvable(b)
    ensures r.Success? ==> PopulatesWith(b, TrackedExtras(b).value, r.value)
  {
    var extras :- TrackedExtras(b);
    Success(PopulateWith(b, extras))
  }

  /** The `ON` and `WHERE` clauses as the source's loop builds them: a separator
      that is empty before the first key and `" AND "` after it. */
  method BuildJoinClauses(keys: seq<string>) returns (onClause: string, whereClause: string)
    ensures onClause == OnClause(keys)
    ensures whereClause == WhereClause(keys)
  {
    var equalities := seq(|keys|, i requires 0 <= i < |keys| => JoinEquality(keys[i]));
    var nullTests := seq(|keys|, i requires 0 <= i < |keys| => SideIsNull(keys[i]));
    var on := "";
    var where := "";
    var separator := "";
    var i := 0;
    while i < |keys|
      invariant 0 <= i <= |keys|
      invariant separator == if i == 0 then "" else " AND "
      invariant on == Join(equalities[..i], " AND ")
      invariant where == Join(nullTests[..i], " AND ")
    {
      JoinSnoc(equalities, i, " AND ");
      JoinSnoc(nullTests, i, " AND ");
      assert on + separator + equalities[i] == Join(equalities[..i + 1], " AND ");
      assert where + separator + nullTests[i] == Join(nullTests[..i + 1], " AND ");
      on := on + separator + equalities[i];
      where := where + separator + nullTests[i];
      separator := " AND ";
      i := i + 1;
    }
    assert equalities[..|keys|] == equalities;
    assert nullTests[..|keys|] == nullTests;
    onClause := "ON " + on;
    whereClause := "WHERE " + where;
  }

  /** With back-tick quoting throughout, the tracking table declares, after its
      tracking block, exactly the columns the populate statement fills after its
      tracking columns, in the same order and under the same quoted names. */
  lemma PopulateFillsDeclaredColumns(b: Builder)
    requires TrackedExtras(b).Success?
    ensures var create := CreateTableCommandTextCorrected(b).value;
            var populate := PopulateFromBaseTable(b).value;
            var pk := b.table.primaryKey;
            var declared := create.columns[|pk| + |TrackingColumnDefs|..];
            var filled := populate.insertColumns[|pk| + |PopulateTrackingColumns|..];
            && |declared| == |filled|
            && (forall i :: 0 <= i < |declared| ==> declared[i].name == filled[i])
            && (forall i :: 0 <= i < |pk| ==> create.columns[i].name == populate.insertColumns[i])
  {
    var create := CreateTableWith(b, Backticks);
    assert CreateTableCommandTextCorrected(b) == create;
    DeclaredMatchesFilled(b, TrackedExtras(b).value, create.value, PopulateFromBaseTable(b).value);
  }

  /** The populate statement inserts extra column `k` right after the key and tracking columns. */
  lemma ExtraFilledAt(b: Builder, extras: seq<ExtraColumn>, s: PopulateStatement, k: int)
    requires FillsColumns(b, extras, s) && 0 <= k < |extras|
    ensures |s.insertColumns| > |b.table.primaryKey| + |PopulateTrackingColumns| + k
    ensures s.insertColumns[|b.table.primaryKey| + |PopulateTrackingColumns| + k] ==
            b.quoting.fullQuoted(extras[k].column.name, "`", "`")
  {
  }

  /** The populate statement of a builder inserts its extra column `k` right after the
      key and tracking columns, back-tick quoted. */
  lemma PopulateInsertsExtra(b: Builder, k: int)
    requires TrackedExtras(b).Success? && 0 <= k < |TrackedExtras(b).value|
    ensures PopulateFromBaseTable(b).Success?
    ensures |PopulateFromBaseTable(b).value.insertColumns| > |b.table.primaryKey| + |PopulateTrackingColumns| + k
    ensures PopulateFromBaseTable(b).value.insertColumns[|b.table.primaryKey| + |PopulateTrackingColumns| + k] ==
            b.quoting.fullQuoted(TrackedExtras(b).value[k].column.name, "`", "`")
  {
    ExtraFilledAt(b, TrackedExtras(b).value, PopulateFromBaseTable(b).value, k);
  }

  /** A statement declaring the key columns and then the extras under back-tick quoted
      names matches, name for name, a populate statement filling those extras. */
  lemma DeclaredMatchesFilled(b: Builder, extras: seq<ExtraColumn>, create: CreateTableStatement, populate: PopulateStatement)
    requires FillsColumns(b, extras, populate)
    requires var pk := b.table.primaryKey;
             var base := |pk| + |TrackingColumnDefs|;
             && |create.columns| == base + |extras|
             && (forall i :: 0 <= i < |pk| ==> create.columns[i] == KeyColumnDef(b, pk[i]))
             && (forall k :: 0 <= k < |extras| ==>
                   create.columns[base + k].name == b.quoting.fullQuoted(extras[k].column.name, "`", "`"))
    ensures var pk := b.table.primaryKey;
            var declared := create.columns[|pk| + |TrackingColumnDefs|..];
            var filled := populate.insertColumns[|pk| + |PopulateTrackingColumns|..];
            && |declared| == |filled|
            && (forall i :: 0 <= i < |declared| ==> declared[i].name == filled[i])
            && (forall i :: 0 <= i < |pk| ==> create.columns[i].name == populate.insertColumns[i])
  {
    var pk := b.table.primaryKey;
    var base := |pk| + |TrackingColumnDefs|;
    var n := |pk| + |PopulateTrackingColumns|;
    forall i | 0 <= i < |extras|
      ensures create.columns[base..][i].name == populate.insertColumns[n..][i]
    {
      assert create.columns[base..][i] == create.columns[base + i];
      assert populate.insertColumns[n..][i] == populate.insertColumns[n + i];
      assert populate.insertColumns[n + i] == b.quoting.fullQuoted(extras[i].column.name, "`", "`");
    }
  }

  // ---------------------------------------------------------------------------
  // Primary key and drop scripts
  // ---------------------------------------------------------------------------

  /** `CreatePkCommandText`: the key is declared by `CREATE TABLE`, so there is nothing to run. */
  function CreatePkCommandText(b: Builder): (r: string)
    ensures |r| == 0
  {
    ""
  }

  const DropPrefix := "drop table if exists "

  /** The drop command of `DropTableScriptText`: `drop table if exists` on the tracking table. */
  function DropTableCommand(b: Builder): (r: string)
    ensures |r| == |DropPrefix| + |b.trackingName|
    ensures r[..|DropPrefix|] == DropPrefix && r[|DropPrefix|..] == b.trackingName
  {
    DropPrefix + b.trackingName
  }

  /** `DropTableScriptText`: the drop command wrapped with the comment `Drop table {name}`
      by `wrap` (`MySqlBuilder.WrapScriptTextWithComments`). */
  function DropTableScriptText(b: Builder, wrap: (string, string) -> string): (r: string)
    ensures exists command :: && r == wrap(command, "Drop table " + b.trackingName)
                              && |command| == |DropPrefix| + |b.trackingName|
                              && command[..|DropPrefix|] == DropPrefix
                              && command[|DropPrefix|..] == b.trackingName
  {
    var command := DropTableCommand(b);
    assert command[..|DropPrefix|] == DropPrefix;
    wrap(command, "Drop table " + b.trackingName)
  }

  // ---------------------------------------------------------------------------
  // The filter-column quoting of CREATE TABLE
  // ---------------------------------------------------------------------------

  /** Quoting that wraps a name in its delimiters, as `ObjectNameParser` does for a plain name. */
  const WrapQuoting := Quoting((n: string, l: string, r: string) => l + n + r,
                               (n: string, l: string, r: string) => n,
                               (n: string, l: string, r: string) => l + n + r)

  const IdColumn := DmColumn("id", "int", 11, false, false, 0, 0, 0)
  const RegionColumn := DmColumn("region", "varchar", 16, false, true, 20, 0, 0)

  /** A table keyed on `id` and filtered on its `region` column. */
  const RegionFilteredBuilder := Builder(
    TableDescription("`customer`", [IdColumn, RegionColumn], [IdColumn], [], "MySqlSyncProvider", false),
    Some([FilterClause(Some("region"))]),
    "`customer`", "`customer_tracking`",
    TypeMapping((q: TypeQuery) => "int", (q: TypeQuery, p: int, s: int) => ""),
    WrapQuoting,
    "UNIX_TIMESTAMP()")

  /** As written, the tracking table of a region-filtered table declares the filter
      column as `[region]` while the populate statement inserts into `` `region` ``:
      MySQL reads the brackets as part of no valid identifier, and the insert names a
      column the table does not declare. */
  lemma FilterColumnQuotedApart()
    ensures var b := RegionFilteredBuilder;
            var create := CreateTableCommandText(b);
            var populate := PopulateFromBaseTable(b);
            && create.Success? && populate.Success?
            && |create.value.columns| > 8 && create.value.columns[8].name == "[region]"
            && |populate.value.insertColumns| > 7 && populate.value.insertColumns[7] == "`region`"
            && create.value.columns[8].name != populate.value.insertColumns[7]
  {
    RegionCreateDeclaresBrackets();
    RegionPopulateInsertsBackticks();
  }

  lemma RegionCreateDeclaresBrackets()
    ensures CreateTableCommandText(RegionFilteredBuilder).Success?
    ensures |CreateTableCommandText(RegionFilteredBuilder).value.columns| > 8
    ensures CreateTableCommandText(RegionFilteredBuilder).value.columns[8].name == "[region]"
  {
    RegionExtras();
    RegionQuoted();
    RegionShapedCreate(RegionFilteredBuilder);
  }

  /** The example's quoting wraps `region` in the delimiters it is given. */
  lemma RegionQuoted()
    ensures RegionFilteredBuilder.quoting.fullQuoted("region", "[", "]") == "[region]"
    ensures RegionFilteredBuilder.quoting.fullQuoted("region", "`", "`") == "`region`"
  {
  }

  /** Any builder with one key column, quoting `region` in brackets as `[region]`, and
      the filter column `region` as its only extra column declares `[region]` right
      after the key and tracking columns. */
  lemma RegionShapedCreate(b: Builder)
    requires TrackedExtras(b) == Success([FilterColumn(RegionColumn)])
    requires |b.table.primaryKey| == 1 && b.quoting.fullQuoted("region", "[", "]") == "[region]"
    ensures CreateTableCommandText(b).Success?
    ensures |CreateTableCommandText(b).value.columns| > 8
    ensures CreateTableCommandText(b).value.columns[8].name == "[region]"
  {
    var create := CreateTableCommandText(b);
    assert |TrackingColumnDefs| == 7;
    assert create.value.columns[|b.table.primaryKey| + |TrackingColumnDefs| + 0].name ==
           b.quoting.fullQuoted(RegionColumn.name, "[", "]");
  }

  lemma RegionPopulateInsertsBackticks()
    ensures PopulateFromBaseTable(RegionFilteredBuilder).Success?
    ensures |PopulateFromBaseTable(RegionFilteredBuilder).value.insertColumns| > 7
    ensures PopulateFromBaseTable(RegionFilteredBuilder).value.insertColumns[7] == "`region`"
  {
    RegionExtras();
    RegionQuoted();
    RegionShapedPopulate(RegionFilteredBuilder);
  }

  /** Any builder with one key column, quoting `region` in back-ticks as `` `region` ``,
      and `region` as its only extra column inserts `` `region` `` right after the key and tracking columns. */
  lemma RegionShapedPopulate(b: Builder)
    requires TrackedExtras(b) == Success([FilterColumn(RegionColumn)])
    requires |b.table.primaryKey| == 1 && b.quoting.fullQuoted("region", "`", "`") == "`region`"
    ensures PopulateFromBaseTable(b).Success?
    ensures |PopulateFromBaseTable(b).value.insertColumns| > 7
    ensures PopulateFromBaseTable(b).value.insertColumns[7] == "`region`"
  {
    PopulateInsertsExtra(b, 0);
  }

  /** The region filter resolves to the table's `region` column. */
  lemma RegionFilterResolves()
    ensures ResolveFilters(RegionFilteredBuilder.table, RegionFilteredBuilder.filters.value) == Success([RegionColumn])
  {
    var t := RegionFilteredBuilder.table;
    var filters := RegionFilteredBuilder.filters.value;
    assert FindColumn(t, "region") == Some(RegionColumn) by {
      assert t.columns[0] == IdColumn && t.columns[1] == RegionColumn;
      assert !SameName("id", "region");
      assert !NameMatches(t, IdColumn, "region");
      assert NameMatches(t, RegionColumn, "region");
      assert FindColumnFrom(t, "region", 1) == Some(RegionColumn);
    }
    assert filters[1..] == [];
    assert NamesColumn(filters[0]);
    assert ResolveFilters(t, []) == Success([]);
    assert [RegionColumn] + [] == [RegionColumn];
  }

  /** The only column after the tracking block is the `region` filter column. */
  lemma RegionExtras()
    ensures TrackedExtras(RegionFilteredBuilder) == Success([FilterColumn(RegionColumn)])
  {
    RegionFilterColumns();
    RegionKeyAvoidsRegion();
    SingleFilterExtras(RegionFilteredBuilder, RegionColumn);
  }

  /** The region builder's filter loop finds the `region` column. */
  lemma RegionFilterColumns()
    ensures FilterColumns(RegionFilteredBuilder) == Success([RegionColumn])
  {
    RegionFilterResolves();
  }

  /** The region builder's key column is not named `region`, ignoring case. */
  lemma RegionKeyAvoidsRegion()
    ensures !NameTaken(RegionFilteredBuilder.table.primaryKey, RegionColumn.name)
  {
    assert !SameName("id", "region");
  }

  /** A builder without relations whose filters resolve to one column that no key
      column names keeps exactly that filter column after the tracking block. */
  lemma SingleFilterExtras(b: Builder, column: DmColumn)
    requires b.table.childRelations == []
    requires FilterColumns(b) == Success([column])
    requires !NameTaken(b.table.primaryKey, column.name)
    ensures TrackedExtras(b) == Success([FilterColumn(column)])
  {
    var pk := b.table.primaryKey;
    var candidates := [FilterColumn(column)];
    assert RelationCandidates(b.table.childRelations) + FilterCandidates([column]) == candidates;
    assert candidates[..0] == [] && ColumnsOf([]) == [];
    assert pk + ColumnsOf([]) == pk;
    assert FirstOccurrences(pk, candidates) == [FilterColumn(column)];
  }
}

=== FILE: wrappers.dfy ===
/** Failure-carrying wrappers used across the model: `Option` for nullable
    values (C# `null` / `DBNull`) and `Result` for operations that throw. */
module Wrappers {

  /** A nullable value: `None` stands for `null` or `DBNull.Value`. */
  datatype Option<+T> = None | Some(value: T) {

    /** The wrapped value, or `default` when absent. */
    function GetOr(default: T): T {
      match this
      case Some(v) => v
      case None => default
    }
  }

  /** The outcome of an operation that either returns a value or raises an error. */
  datatype Result<+R, +E> = Success(value: R) | Failure(error: E) {

    predicate IsFailure() {
      Failure?
    }

    function PropagateFailure<U>(): Result<U, E>
      requires Failure?
    {
      Failure(error)
    }

    function Extract(): R
      requires Success?
    {
      value
    }
  }
}
